=== FILE: README.md ===
# StekFinder social autopilot, in Dafny

This project models the social-content autopilot of the StekFinder backend. The autopilot has five parts:

- **Content engine.** It writes Dutch fishing posts with a text model. There is one post per catalog type, and a week is planned at 09:00 per day.
- **Publisher.** It sends a post to a Facebook page and an Instagram business account through the Meta Graph API.
- **Weekly generation cron.** It fills the post store, as queued or auto-approved posts.
- **Daily publishing cron.** It takes at most five approved, due posts, publishes them and records the outcome on each row.
- **Admin endpoint.** It lists posts with counters and platform flags. It also generates posts on demand, moderates them (approve, approve all, reject, delete, edit, reschedule), and patches the social configuration.

Every external service is an oracle parameter:

- the text model is a function from a request to a reply (`ContentEngine.Model`);
- the Graph API is a function from a request to a reply (`Social.Graph`);
- each store write is a `PostStore.Write` (applied, ignored by the server, or thrown);
- each bulk insert is a `PostStore.InsertReply`.

The post store is a `map<PostId, Post>` with a next-id counter (`PostStore.Store`). Time is an integer number of milliseconds, and a calendar day is a day number. Day 0 is Thursday 1 January 1970.

Modules, one per source file, plus shared ones:

- `Wrappers`: `Option`, `Result`.
- `Js`: the JavaScript value rules the code leans on. These are truthiness, `||` on strings, `join`, `replace` of the first match, `substring` and the first line of a text.
- `Auth`: the bearer check that both crons and the admin endpoint use.
- `Domain`: posts, statuses, platforms, configuration, 09:00 of a day, and operator notices.
- `ContentEngine`: api/lib/content-engine.js.
- `Social`: api/lib/social.js.
- `PostStore`: the store operations the handlers perform (insert, update, delete, due query).
- `CronGenerate`: api/cron/generate.js.
- `CronPost`: api/cron/post.js.
- `Autopilot`: api/admin/autopilot.js.

## Model

| member | source | states |
|---|---|---|
| Js.Or | api/cron/post.js:81 | `a \|\| b` on optional strings: the result is truthy iff either side is, and it is the left side exactly when the left side is truthy |
| Js.JoinContains | api/cron/post.js:88 | every joined element occurs in the joined string |
| Js.ReplaceFirst | api/cron/post.js:38 | `replace` with a string pattern rewrites the first occurrence only, wherever it is; a string without the pattern is returned unchanged |
| Js.IndexOf | api/cron/post.js:38 | the position found is the first occurrence at or after the start; none means no occurrence at all |
| Js.Prefix | api/cron/generate.js:75 | `substring(0, n)` is a prefix of the text of length min(n, length) |
| Js.FirstLine | api/lib/content-engine.js:143 | `split('\n')[0]` is the prefix up to the first newline: it contains no newline and is either the whole text or stops at a newline |
| Auth.Credential | api/admin/autopilot.js:21 | no header gives no credential; a header starting with "Bearer " gives the rest of it |
| Auth.BearerAccepted | api/cron/post.js:38-41 | "Bearer " followed by the secret is accepted |
| Auth.WrongTokenRefused | api/cron/generate.js:38-41 | a bearer token other than the secret is refused (401) |
| Auth.MissingHeaderRefused | api/cron/post.js:38-41 | with the secret set, a request without an authorization header is refused |
| Auth.UnsetSecretAcceptsNoHeader | api/admin/autopilot.js:19-23 | with no secret and no header, undefined equals undefined and the request is accepted |
| Auth.RawSecretAccepted | api/admin/autopilot.js:21-22 | the secret without the "Bearer " prefix is accepted too, because the replacement finds nothing to strip |
| Domain.NineAm | api/lib/content-engine.js:156-158 | 09:00 of a day lies within that day |
| Domain.NineAmOrder | api/lib/content-engine.js:156-158 | 09:00 of day a is before 09:00 of day b iff a < b |
| Domain.InsertStatus | api/cron/generate.js:54-57 | an inserted post is approved iff auto-approve is truthy, otherwise queued |
| ContentEngine.Find | api/lib/content-engine.js:105-106 | a type key is found only when a catalog entry has that key, and is missing only when no entry has it |
| ContentEngine.SeasonOf | api/lib/content-engine.js:75-81 | months 2-4 are spring, 5-7 summer, 8-10 autumn, and every other month winter, each as an iff |
| ContentEngine.SeasonsAdvance | api/lib/content-engine.js:75-81 | three months later is always the next season |
| ContentEngine.SeasonalContext | api/lib/content-engine.js:83-100 | every month 0..11 has a non-empty context line |
| ContentEngine.UserPrompt | api/lib/content-engine.js:108-110 | a truthy custom prompt gives exactly "Maak een <label> post over: <prompt>"; otherwise the prompt names the label and contains the type's description |
| ContentEngine.DraftOf | api/lib/content-engine.js:138-144 | the type is the requested key; hashtags default to `[]`; a falsy image prompt becomes null; a falsy hook becomes the text up to its first newline |
| ContentEngine.GenerateContent | api/lib/content-engine.js:102-145 | a missing key fails first, then an unknown type, both before any model call; success iff key and type are good and the model completes, and the draft is then the completion's text, hashtags, image prompt and hook with their defaults; a non-2xx reply fails with "OpenAI error: " and its message, an unparseable one with its own message |
| ContentEngine.Planned | api/lib/content-engine.js:155-167 | attempt i yields a row exactly when its `generateContent` call succeeds; that row carries the generated draft, type `types[i % 7]`, platform both, status queued and 09:00 of today + i |
| ContentEngine.CollectFacts | api/lib/content-engine.js:152-176 | the kept results are at most as many as the attempts and are exactly the successful attempts' drafts |
| ContentEngine.CollectSchedules | api/lib/content-engine.js:156-166 | kept posts keep the order of their attempts, so their schedules strictly increase and fall within the n days from today |
| ContentEngine.CollectComplete | api/lib/content-engine.js:160-170 | when no attempt fails, post i is attempt i |
| ContentEngine.CollectNone | api/lib/content-engine.js:168-170 | when every attempt fails, the week is empty and nothing is raised |
| ContentEngine.WeekPlanFacts | api/lib/content-engine.js:150-177 | the week has at most n posts, each a successful attempt, all on both platforms, queued, with strictly increasing schedules |
| ContentEngine.WeekPlanComplete | api/lib/content-engine.js:154-167 | when every `generateContent` call succeeds, the week holds every attempt's row, in attempt order |
| ContentEngine.WeekPlanKeepsSuccesses | api/lib/content-engine.js:154-170 | the week has a row on day today + i exactly when generation i succeeded, and then it holds that generation's draft: no successful generation is dropped |
| Domain.SameNineAmSameDay | api/lib/content-engine.js:156-158 | two days with the same 09:00 instant are the same day |
| ContentEngine.WeekPlanWithoutKey | api/lib/content-engine.js:103 | without an API key every attempt fails, so the week is empty |
| ContentEngine.WeekCoversCatalog | api/lib/content-engine.js:3-39 | attempt i of the week uses catalog entry i, so each of the seven types is tried once, in catalog order |
| ContentEngine.RunAttempts | api/lib/content-engine.js:154-176 | the loop keeps exactly the successful attempts, in order |
| ContentEngine.GenerateWeek | api/lib/content-engine.js:150-177 | the week has at most 7 posts, all on both platforms and queued, with strictly increasing schedules; every successful generation is in it with its draft on its day |
| Social.PostToFacebook | api/lib/social.js:8-28 | a missing page id or token fails with no call; with an image it sends one photos call, and without one a feed call; a Graph error becomes an error prefixed "Facebook: "; a failed request throws its own message; otherwise the result is `id \|\| post_id` |
| Social.PostToInstagram | api/lib/social.js:33-67 | a missing account or token fails first, then a missing image, both with no call; publish is called only after a successful container and with that container's id; a publish reply without error gives its id; container and publish errors are prefixed "Instagram container: " and "Instagram publish: "; a failed request throws its own message |
| Social.ErrorsOf | api/lib/social.js:83-85 | a platform adds no error when its attempt returned, and exactly the platform prefix followed by the thrown message when it threw |
| Social.PostToSocial | api/lib/social.js:72-102 | a tried platform records the id its attempt returned, or null when it threw; the errors are the Facebook attempt's followed by the Instagram attempt's, so at most two, any Facebook one first; a platform not selected or not configured keeps a null id; every call carries the Facebook access token |
| Social.BothIsEachInTurn | api/lib/social.js:75-98 | posting to both is posting to Facebook and then to Instagram; a Facebook failure does not change the Instagram attempt |
| Social.NothingToTry | api/lib/social.js:72-101 | an unknown platform, or neither account id, makes no call and gives both ids null and no errors |
| Social.IdMeansNoError | api/lib/social.js:83-98 | a platform that ends with an id recorded no error for itself |
| Social.InstagramNeedsAnImage | api/lib/social.js:35 | Instagram without an image fails before any call, and Facebook still gets its feed post |
| PostStore.ColumnsOfMakePost | api/cron/generate.js:59-68 | an inserted row keeps the columns it was sent with and gets the assigned id |
| PostStore.WithStatus | api/cron/generate.js:54-57 | every row gets the given status and nothing else changes |
| PostStore.Insert | api/cron/generate.js:59-68 | row i gets id nextId + i and the columns it was sent with; no row existed before; the rows already stored are unchanged |
| PostStore.InsertKeepsValid | api/cron/generate.js:59-68 | an insert keeps ids unique and below the counter |
| PostStore.InsertedWithStatus | api/cron/generate.js:54-66 | after inserting rows with a status, every new row has that status |
| PostStore.InsertChecked | api/cron/generate.js:64-66 | a non-ok insert is an error "DB insert failed: <body>" with nothing inserted; only an accepted insert changes the store |
| PostStore.Replace | api/cron/post.js:82-90 | a single-row update changes only that row |
| PostStore.Remove | api/admin/autopilot.js:179-183 | a delete removes only the row with that id |
| PostStore.DueIds | api/cron/post.js:53-55 | a post is due iff it is approved and scheduled at or before now |
| PostStore.Earliest | api/cron/post.js:55 | the chosen post precedes every other candidate in schedule order |
| PostStore.TakeEarliest | api/cron/post.js:55 | adding the earliest remaining due post keeps the batch a sorted prefix of the due posts |
| PostStore.SelectionComplete | api/cron/post.js:55 | a full batch, or one that ran out of due posts, is the due query's answer |
| PostStore.SelectDue | api/cron/post.js:53-57 | the batch is at most 5 due posts as stored, ascending by schedule, and no due post left out precedes one taken |
| PostStore.BacklogWaits | api/cron/post.js:55 | with more than 5 due posts, the batch is full and some due post waits for a later run |
| CronPost.FullText | api/cron/post.js:69-71 | the text sent starts with the post text, and equals it iff there are no hashtags |
| CronPost.HashtagsSent | api/cron/post.js:70 | every hashtag occurs in the text sent |
| CronPost.ImageOf | api/cron/post.js:76 | a falsy image url is sent as null; a truthy one unchanged |
| CronPost.MetaId | api/cron/post.js:81 | the meta id is the Facebook id if truthy, else the Instagram id if truthy, else null |
| CronPost.Classify | api/cron/post.js:85-88 | failed iff there are errors and no id; otherwise posted; the error message is null iff there are no errors |
| CronPost.ErrorsRecorded | api/cron/post.js:88 | every platform error appears in the recorded error message |
| CronPost.OneSuccessSuffices | api/cron/post.js:85 | a post that got an id on one platform is posted, whatever the other platform did |
| CronPost.NothingTriedIsPosted | api/cron/post.js:85-88 | a post for which no platform was attempted is recorded as posted with no meta id and no error |
| CronPost.Settle | api/cron/post.js:66-104 | only the post's own row changes; an applied outcome write records the verdict, the meta id and the posting time; a thrown outcome write marks the row failed with the thrown message and leaves its posted-at alone; the run aborts only when that failure write throws too |
| CronPost.SettledIsNotDue | api/cron/post.js:82-102 | once its outcome or failure is written, a post is no longer due, so the next run skips it |
| CronPost.CountPublished | api/cron/post.js:92 | the posted count is at most the batch size, and equals it iff every publish call returned |
| CronPost.CountPublishedIsIndexCount | api/cron/post.js:78-92 | the posted count is the number of posts whose publish call returned |
| CronPost.Lines | api/cron/post.js:111-118 | one summary line per result, in order; a line reads not placed, with the result's error, exactly when the result errored with a non-empty message, since the summary tests the message's truthiness; every other line reads placed |
| CronPost.BatchIdsDistinct | api/cron/post.js:53-57 | the due batch holds no post twice |
| CronPost.SettleStep | api/cron/post.js:66-104 | settling post i, still as stored and distinct from the earlier ones, keeps every row after it untouched and every result lined up with its post |
| CronPost.SettledStep | api/cron/post.js:82-102 | settling post i leaves it as its writes dictate and keeps every earlier row so |
| CronPost.RowSettledNotDue | api/cron/post.js:82-102 | a row whose outcome write or failure write landed is posted or failed, so it is no longer due |
| CronPost.SettleAll | api/cron/post.js:66-108 | posts are dispatched as stored, one result per post in order; the run completes iff no post had both its outcome write and its failure write throw, and a crash carries the failure write's message; posted is the published count; each published result carries the outcome dispatched for its post; each row is left as its writes dictate |
| CronPost.Publish | api/cron/post.js:36-126 | a wrong secret gets 401 and touches nothing; posting disabled returns before the due query; "nothing scheduled" iff the run reaches the due query and nothing is due; once the query answers, the batch is the due batch; the run completes iff it reaches the query, something is due and no post had both writes throw, and it crashes only on a failed configuration read, a failed due query or such a post; rows outside the batch are unchanged; on success each published result carries the outcome sent for its post, each batch row holds the verdict, meta id and posting time when its outcome write applied, is failed with the thrown message when only its failure write applied, and is untouched otherwise; such a row is no longer due, and the report counts the posted ones |
| CronGenerate.GenerationLines | api/cron/generate.js:75 | line i is numbered i + 1 and carries the type and exactly the first 50 characters of the text, or the whole text when it is shorter |
| CronGenerate.GenerateRun | api/cron/generate.js:36-84 | 401 iff not authorized; created iff authorized, config read and insert accepted; the count is the week's size; new rows carry the auto-approve status; the report lists every inserted row, numbered, with its type and preview; any failure leaves the store unchanged and notifies the error |
| Autopilot.Count | api/admin/autopilot.js:43-46 | a status counter is at most the total and is zero iff no post has that status |
| Autopilot.CountIsMultiplicity | api/admin/autopilot.js:43-46 | a status counter is the number of times that status occurs in the listing's status column |
| Autopilot.CountAll | api/admin/autopilot.js:43-46 | a status counter equals the total iff every post has that status |
| Autopilot.StatusesPartition | api/admin/autopilot.js:42-47 | the four status counters plus the posts of other statuses sum to the total |
| Autopilot.Weekday | api/admin/autopilot.js:53 | `getDay()` lies in 0..6 |
| Autopilot.WeekStart | api/admin/autopilot.js:51-57 | the corrected week start is the Monday on or before today, so the week holds today |
| Autopilot.WeekStartOnSunday | api/admin/autopilot.js:53 | the week start as written agrees with the corrected one except on Sundays, where it is the next day |
| Autopilot.SundayPostNotCounted | api/admin/autopilot.js:48-58 | on Sunday 4 January 1970, a post at 09:00 that day is outside the week as written and inside the corrected week |
| Autopilot.CountInWeek | api/admin/autopilot.js:48-58 | the week counter is at most the total and is zero iff no post is scheduled in the week |
| Autopilot.CountInWeekIsIndexCount | api/admin/autopilot.js:48-58 | the week counter is the number of listed posts scheduled in the week |
| Autopilot.FirstScheduled | api/admin/autopilot.js:59 | `find` stops at the first approved post with a schedule |
| Autopilot.NextScheduled | api/admin/autopilot.js:59 | there is a next schedule iff some approved post has a schedule, and it is one of theirs |
| Autopilot.NextScheduledIsEarliest | api/admin/autopilot.js:34 | with the listing in ascending schedule order, the next schedule is the earliest of the approved scheduled posts |
| Autopilot.StatsOf | api/admin/autopilot.js:42-60 | each of the queued, approved, posted and failed counters is the number of times that status occurs in the listing and is non-zero iff such a post exists; the counters sum to at most the total, and to the total iff every status is one of the four; the week counter is the number of posts scheduled in the week; a next schedule exists iff an approved post is scheduled |
| Autopilot.FlagsMatchPublisher | api/admin/autopilot.js:63-68 | a platform flagged unusable never gets an id from the publisher, and a usable one is called for posts that target it |
| Autopilot.Dashboard | api/admin/autopilot.js:31-79 | the overview is returned iff both reads succeed and carries the listing, its total, the platform flags and the catalog; otherwise 500 |
| Autopilot.KindKey | api/admin/autopilot.js:118 | a falsy type becomes `vistip` |
| Autopilot.GenerateWeekAction | api/admin/autopilot.js:86-113 | created iff the config read and insert succeed, replying with the inserted rows and their number; new rows carry the auto-approve status; a failure changes nothing and reports "DB insert failed" |
| Autopilot.GenerateSingleAction | api/admin/autopilot.js:115-147 | a failed generation is a 500 with its message, before the configuration is read; created iff generation succeeds, the configuration reads and the insert is accepted; the created post carries the generated text, hashtags, image prompt and hook, no image, the requested type, platform both, the auto-approve status and 09:00 tomorrow as its schedule |
| Autopilot.HandleGenerate | api/admin/autopilot.js:82-154 | an action other than the two generate actions is 400 "Ongeldige actie" with no change; `generate_week` creates iff the configuration reads and the insert is accepted; `generate_single` creates iff generation also succeeds; existing rows are never changed |
| Autopilot.ApplyChange | api/admin/autopilot.js:200-203 | each field a change carries is written to the row: status, text, hashtags, platform and image take the change's value, and the schedule is kept, cleared or set as the change's schedule is absent, null or a value; the id, type, image prompt, hook, publication columns and creation time are never touched |
| Autopilot.ChangeIdempotent | api/admin/autopilot.js:166-203 | applying the same patch twice is applying it once |
| Autopilot.EditChange | api/admin/autopilot.js:184-191 | an edit sets no status; it copies the text and the image exactly when they are truthy, leaving them absent otherwise, and the schedule exactly when it is given; it passes the hashtags and platform it was given |
| Autopilot.EditKeepsWhatItCannotClear | api/admin/autopilot.js:184-191 | an edit never changes the status and never empties the text, image or schedule; truthy text is taken as given |
| Autopilot.RescheduleEffects | api/admin/autopilot.js:193-194 | a reschedule without a date changes nothing; with `null` the post is no longer due; with a date only the schedule changes |
| Autopilot.ModerationDecidesPublication | api/admin/autopilot.js:166-178 | approving a post scheduled in the past makes it due; rejecting any post makes it not due |
| Autopilot.UpdateRow | api/admin/autopilot.js:200-203 | the patch applies to the row with that id only |
| Autopilot.ApproveAll | api/admin/autopilot.js:169-175 | every queued post becomes approved and every other post is unchanged |
| Autopilot.ApproveAllIdempotent | api/admin/autopilot.js:169-175 | approving all twice is approving all once |
| Autopilot.HandleModerate | api/admin/autopilot.js:157-209 | no id or an unknown action is 400 with no write; an edit or reschedule without updates is 500; otherwise an ignored write answers ok and a thrown one 500, both with the store unchanged; with an applied write, approve sets the named row approved, reject sets it queued, approve_all approves every queued row, delete removes the id, and edit and reschedule apply their change to the named row; publication columns never change, and except approve_all only the named row changes |
| Autopilot.ModerateKeepsValid | api/admin/autopilot.js:157-209 | moderation keeps ids unique and below the counter |
| Autopilot.ApplyConfig | api/admin/autopilot.js:216-223 | the update time is always set; a field absent from the body keeps its value; a present value replaces it; `null` clears an id or token and turns a switch off |
| Autopilot.ApplyConfigIdempotent | api/admin/autopilot.js:216-228 | the same configuration patch twice is the patch once, at the later time |
| Autopilot.SwitchesReachTheCrons | api/admin/autopilot.js:222-223 | posting turned off or cleared stops the next publish run; auto-approve turned on makes the next inserts approved |
| Autopilot.HandleConfig | api/admin/autopilot.js:212-234 | the configuration changes only when the write is applied; a thrown write is a 500 |
| Autopilot.Handle | api/admin/autopilot.js:25-237 | 401 iff not authorized, with nothing changed; an unknown method is 405; an authorized PATCH is the moderation handler's answer and store, and an authorized PUT the configuration handler's answer and row; GET and PUT leave posts alone, and only PUT touches the configuration; every status afterwards is unchanged, approved or queued |

## Behaviour of the code the model keeps

- An edit with `hashtags: []` clears the hashtags. An empty JavaScript array is truthy, so the spread at api/admin/autopilot.js:187 copies it. `Autopilot.EditChange` passes the hashtags through as given. `Autopilot.EditKeepsWhatItCannotClear` promises only text, image and schedule.
- The publish run never inspects a write's response (api/cron/post.js:82-90). A write the server rejects is ignored, and the post still counts as posted. The run fails with 500 and an error notice in three cases:
  - the configuration read throws;
  - the due query throws;
  - a post's outcome write throws and its failure write throws too. The failure write at api/cron/post.js:96-102 runs inside the outer `try`.
- That abort can come after earlier posts of the batch were already written. `CronPost.Publish` keeps those writes.
- The hook falls back to the first line of the text whenever it is falsy, so an empty-string hook is replaced too (api/lib/content-engine.js:143).
- No `fetch` call in the code sets a timeout (api/lib/social.js:19, api/lib/social.js:38, api/lib/social.js:55, api/lib/content-engine.js:112), so no timeout is modelled.
- `approve_all` needs an id in the body even though it ignores it. The id check at api/admin/autopilot.js:160 comes before the action switch.

## Left out

- The HTTP layer is not modelled: `supaFetch`, the Graph and OpenAI requests, their JSON parsing, and status codes other than those the handlers return. Every reply is an oracle parameter.
- A completion whose JSON lacks `text` cannot be expressed as a `Completion`, which always carries a text. The model can only give such a reply as `Malformed`, so generation fails. The code does not always fail: with a truthy `hook`, the `||` at api/lib/content-engine.js:143 short-circuits, and the draft is accepted with `text_content` undefined. Only with a falsy hook does `content.text.split` throw a TypeError.
- Content that is not JSON is a thrown SyntaxError in the code and `Malformed` in the model. The runtime's message is not modelled.
- An `OpenAI error:` reply's message is the oracle's string. The fallback to `statusText` is folded into it.
- Telegram notifications are not sent. Each run yields the notice it would send (`Domain.Notice`), whether or not a bot token is set, because sending is fire-and-forget with errors swallowed.
- The sleeps (1 s between generations, 3 s before an Instagram publish, 2 s between posts) are timing only.
- Clocks and time zones: "now", "today" and the month are parameters. 09:00 is 09:00 of a day number with no time zone or daylight saving time. Schedules are milliseconds rather than ISO strings, so a stored schedule is always truthy. A run stamps every row it settles with the one `now` it is given as `posted_at`. The code takes a fresh `new Date()` at each write (api/cron/post.js:86), so each row gets the time of its own write.
- Concurrency between overlapping cron runs, and the order in which `Promise.all` settles the two admin GET reads, are not modelled.
- The prompt texts (system prompt, JSON instructions) are not modelled beyond which user prompt branch is taken. The catalog labels, descriptions and month lines are modelled as text; the catalog icons are not.
- `CONTENT_TYPES[type]` for a key inherited from `Object.prototype` (such as `toString`) is treated as an unknown type.
- The admin GET listing (ascending, nulls first, 100 rows) is an oracle sequence. `Autopilot.NextScheduledIsEarliest` assumes its order rather than computing it from the store.
- Due posts with equal schedules are taken in id order. The database leaves that order open.
- A request body's `platform` or `status` string outside the known values is `OtherPlatform` or `OtherStatus`. An empty platform string is treated as absent.
- Ids are natural numbers, and a falsy id is an absent one. The SQL injection surface of `id=eq.${id}` is not modelled.
- An edit or reschedule sent without `updates` is a TypeError in the code. The model answers 500 with the fixed message `updates is undefined`, not the runtime's exact wording.
- Js.Prefix: counts characters (Unicode scalar values). JavaScript's `substring` at api/cron/generate.js:75 counts UTF-16 code units, so the preview of a text with emoji or other astral characters can differ.
- ContentEngine.SeasonalContext: states only that each month's line is non-empty, not its wording.
- ContentEngine.UserPrompt: without a custom prompt it states only that the label and description appear, not the rest of the fixed sentence.
- Autopilot.StatsOf: counts the week from the corrected Monday week start (see Findings), not the code as written.
- api/analyze.js, api/track.js, api/waitlist.js, api/admin/stats.js, api/reverse-geocode.js and the React front end are not part of this model.

## Findings

| source | as written | input that shows it | evidently intended | confidence | as-written member | corrected member |
|---|---|---|---|---|---|---|
| api/admin/autopilot.js:53 | the week starts at `getDate() - getDay() + 1`, and `getDay()` is 0 on a Sunday | today is Sunday 4 January 1970 (day 3): the week starts on Monday 5 January, so a post at 09:00 that Sunday is not counted in `thisWeek` | the Monday-to-Sunday week that contains today, starting six days back on a Sunday | not executed | Autopilot.SundayPostNotCounted | Autopilot.WeekStart |

=== FILE: auth.dfy ===
/** The shared-secret check in front of both cron jobs and the admin
    endpoint: the `Authorization` header, with its first `"Bearer "` removed,
    must equal the configured secret. */
module Auth {
  import opened Wrappers
  import opened Js

  const Bearer := "Bearer "

  /** `req.headers.authorization?.replace('Bearer ', '')`. */
  function Credential(header: Option<string>): (c: Option<string>)
    ensures c.None? <==> header.None?
    ensures header.Some? && StartsWith(header.value, Bearer) ==> c == Some(header.value[|Bearer|..])
  {
    match header
    case None => None
    case Some(h) =>
      assert StartsWith(h, Bearer) ==> "" + h[|Bearer|..] == h[|Bearer|..];
      Some(ReplaceFirst(h, Bearer, ""))
  }

  /** The credential equals the secret, where an absent header and an unset
      secret are both `undefined`. */
  predicate Authorized(header: Option<string>, secret: Option<string>)
  {
    Credential(header) == secret
  }

  /** The documented form, `Bearer <secret>`, is accepted. */
  lemma BearerAccepted(secret: string)
    ensures Authorized(Some(Bearer + secret), Some(secret))
  {
    assert StartsWith(Bearer + secret, Bearer);
    assert (Bearer + secret)[|Bearer|..] == secret;
  }

  /** A bearer token other than the secret is refused. */
  lemma WrongTokenRefused(token: string, secret: string)
    requires token != secret
    ensures !Authorized(Some(Bearer + token), Some(secret))
  {
    assert StartsWith(Bearer + token, Bearer);
    assert (Bearer + token)[|Bearer|..] == token;
  }

  /** With the secret set, a request without the header is refused. */
  lemma MissingHeaderRefused(secret: string)
    ensures !Authorized(None, Some(secret))
  {
  }

  /** With the secret unset, a request without the header is accepted:
      `undefined === undefined`. */
  lemma UnsetSecretAcceptsNoHeader()
    ensures Authorized(None, None)
  {
  }

  /** The secret sent without the `Bearer ` prefix is accepted too, since
      the replacement finds nothing to remove. */
  lemma RawSecretAccepted(secret: string)
    requires forall k :: !OccursAt(secret, Bearer, k)
    ensures Authorized(Some(secret), Some(secret))
  {
  }
}

=== FILE: autopilot.dfy ===
/** The admin endpoint: password check, then the dashboard (GET), content
    generation on demand (POST), post moderation (PATCH) and the social
    configuration (PUT). */
module Autopilot {
  import opened Wrappers
  import opened Js
  import opened Domain
  import opened Auth
  import opened ContentEngine
  import opened Social
  import opened PostStore

  const NotAuthorizedError := "Niet geautoriseerd"
  const InvalidAction := "Ongeldige actie"
  const MissingId := "Post ID is verplicht"
  const MethodNotAllowedError := "Method not allowed"
  /** Stands for the runtime's message when `updates` is absent and a field of it is read. */
  const MissingUpdates := "updates is undefined"
  const DefaultKind := "vistip"

  // ---------------------------------------------------------------- GET

  /** The dashboard counters. */
  datatype Stats = Stats(queued: nat, approved: nat, posted: nat, failed: nat, total: nat,
                         thisWeek: nat, nextScheduled: Option<Time>)

  /** Which platforms are usable and the two switches. */
  datatype Platforms = Platforms(facebook: bool, instagram: bool, autoApprove: bool, postingEnabled: bool)

  /** How many listed posts have status `st`. */
  function Count(ps: seq<Post>, st: Status): (n: nat)
    ensures n <= |ps|
    ensures n == 0 <==> forall i :: 0 <= i < |ps| ==> ps[i].status != st
  {
    if ps == [] then 0
    else
      assert forall i :: 1 <= i < |ps| ==> ps[1..][i - 1] == ps[i];
      (if ps[0].status == st then 1 else 0) + Count(ps[1..], st)
  }

  /** The status column of a listing. */
  function Statuses(ps: seq<Post>): (r: seq<Status>)
    ensures |r| == |ps|
  {
    seq(|ps|, i requires 0 <= i < |ps| => ps[i].status)
  }

  /** A counter is the number of times its status occurs in the listing. */
  lemma {:induction false} CountIsMultiplicity(ps: seq<Post>, st: Status)
    ensures Count(ps, st) == multiset(Statuses(ps))[st]
  {
    if ps != [] {
      CountIsMultiplicity(ps[1..], st);
      assert Statuses(ps) == [ps[0].status] + Statuses(ps[1..]);
    }
  }

  /** A counter equals the total exactly when every post has that status. */
  lemma {:induction false} CountAll(ps: seq<Post>, st: Status)
    ensures Count(ps, st) == |ps| <==> forall i :: 0 <= i < |ps| ==> ps[i].status == st
  {
    if ps != [] {
      CountAll(ps[1..], st);
      assert forall i :: 1 <= i < |ps| ==> ps[1..][i - 1] == ps[i];
    }
  }

  /** Every listed post has exactly one status. */
  lemma {:induction false} StatusesPartition(ps: seq<Post>)
    ensures Count(ps, Queued) + Count(ps, Approved) + Count(ps, Posted) + Count(ps, Failed) + Count(ps, OtherStatus) == |ps|
  {
    if ps != [] {
      StatusesPartition(ps[1..]);
    }
  }

  /** `getDay()` of day number `day`: day 0 (1 January 1970) was a Thursday. */
  function Weekday(day: int): (w: int)
    ensures 0 <= w < 7
  {
    (day + 4) % 7
  }

  /** The week start the dashboard computes, `getDate() - getDay() + 1`. */
  function WeekStartAsWritten(day: int): int
  {
    day - Weekday(day) + 1
  }

  /** The Monday of the week that contains `day`. */
  function WeekStart(day: int): (start: int)
    ensures start <= day < start + 7
    ensures Weekday(start) == 1
  {
    day - (Weekday(day) + 6) % 7
  }

  /** Away from Sundays the two week starts agree; on a Sunday the
      computed one is the next day, so the week counted does not contain
      today. */
  lemma WeekStartOnSunday(day: int)
    ensures Weekday(day) != 0 ==> WeekStartAsWritten(day) == WeekStart(day)
    ensures Weekday(day) == 0 ==> WeekStartAsWritten(day) == day + 1 && WeekStart(day) == day - 6
  {
  }

  /** The instant `t` lies in the seven days from local midnight of day `start`. */
  predicate InWeek(t: Time, start: int)
  {
    start * MsPerDay <= t < (start + 7) * MsPerDay
  }

  /** Sunday 4 January 1970 (day 3): a post at 09:00 that day is outside the
      week the dashboard counts, though it is in the current week. */
  lemma SundayPostNotCounted()
    ensures Weekday(3) == 0
    ensures !InWeek(NineAm(3), WeekStartAsWritten(3))
    ensures InWeek(NineAm(3), WeekStart(3))
  {
  }

  /** A post scheduled within the week that starts at day `start`. */
  predicate InWeekOf(p: Post, start: int)
  {
    p.scheduledFor.Some? && InWeek(p.scheduledFor.value, start)
  }

  /** How many listed posts are scheduled within the week that starts at day `start`. */
  function CountInWeek(ps: seq<Post>, start: int): (n: nat)
    ensures n <= |ps|
    ensures n == 0 <==> forall i :: 0 <= i < |ps| ==> !InWeekOf(ps[i], start)
  {
    if ps == [] then 0
    else
      assert forall i :: 1 <= i < |ps| ==> ps[1..][i - 1] == ps[i];
      (if InWeekOf(ps[0], start) then 1 else 0) + CountInWeek(ps[1..], start)
  }

  /** Appending a post adds one exactly when that post is in the week. */
  lemma {:induction false} CountInWeekAppend(ps: seq<Post>, p: Post, start: int)
    ensures CountInWeek(ps + [p], start) == CountInWeek(ps, start) + if InWeekOf(p, start) then 1 else 0
  {
    if ps != [] {
      CountInWeekAppend(ps[1..], p, start);
      assert (ps + [p])[1..] == ps[1..] + [p];
    }
  }

  /** The positions of the listed posts that fall in the week. */
  ghost function WeekIndices(ps: seq<Post>, start: int): set<int>
  {
    set i | 0 <= i < |ps| && InWeekOf(ps[i], start)
  }

  /** The week counter is the number of listed posts scheduled in the week. */
  lemma {:induction false} CountInWeekIsIndexCount(ps: seq<Post>, start: int)
    ensures CountInWeek(ps, start) == |WeekIndices(ps, start)|
  {
    if ps != [] {
      var init := ps[..|ps| - 1];
      var last := ps[|ps| - 1];
      assert ps == init + [last];
      CountInWeekAppend(init, last, start);
      CountInWeekIsIndexCount(init, start);
      WeekIndicesAppend(init, last, start);
    }
  }

  /** Appending a post adds its position exactly when it is in the week. */
  lemma WeekIndicesAppend(ps: seq<Post>, p: Post, start: int)
    ensures WeekIndices(ps + [p], start) == WeekIndices(ps, start) + if InWeekOf(p, start) then {|ps|} else {}
  {
    var qs := ps + [p];
    forall i | 0 <= i < |ps|
      ensures qs[i] == ps[i]
    {
    }
  }

  /** An approved post with a schedule. */
  predicate Scheduled(p: Post)
  {
    p.status == Approved && p.scheduledFor.Some?
  }

  /** The index of the first approved scheduled post, or the length. */
  function FirstScheduled(ps: seq<Post>): (k: nat)
    ensures k <= |ps|
    ensures k < |ps| ==> Scheduled(ps[k])
    ensures forall j :: 0 <= j < k ==> !Scheduled(ps[j])
  {
    if ps == [] then 0
    else if Scheduled(ps[0]) then 0
    else
      assert forall j :: 1 <= j < |ps| ==> ps[1..][j - 1] == ps[j];
      1 + FirstScheduled(ps[1..])
  }

  /** `find(approved && scheduled_for)?.scheduled_for || null`. */
  function NextScheduled(ps: seq<Post>): (r: Option<Time>)
    ensures r.Some? <==> exists i :: 0 <= i < |ps| && Scheduled(ps[i])
    ensures r.Some? ==> exists i :: 0 <= i < |ps| && Scheduled(ps[i]) && ps[i].scheduledFor == r
  {
    var k := FirstScheduled(ps);
    if k < |ps| then ps[k].scheduledFor else None
  }

  /** The listing order: by schedule ascending, unscheduled posts first. */
  ghost predicate InListingOrder(ps: seq<Post>)
  {
    forall i, j :: 0 <= i < j < |ps| && ps[j].scheduledFor.None? ==> ps[i].scheduledFor.None?
  }

  ghost predicate SchedulesAscend(ps: seq<Post>)
  {
    forall i, j :: 0 <= i < j < |ps| && ps[i].scheduledFor.Some? && ps[j].scheduledFor.Some? ==>
      ps[i].scheduledFor.value <= ps[j].scheduledFor.value
  }

  /** On a listing in schedule order the next scheduled post is the
      earliest approved one. */
  lemma NextScheduledIsEarliest(ps: seq<Post>, i: nat)
    requires InListingOrder(ps) && SchedulesAscend(ps)
    requires i < |ps| && Scheduled(ps[i])
    ensures NextScheduled(ps).Some? && NextScheduled(ps).value <= ps[i].scheduledFor.value
  {
    var k := FirstScheduled(ps);
    assert k <= i;
  }

  /** The counters of a listing, on the current week. */
  function StatsOf(ps: seq<Post>, today: int): (st: Stats)
    ensures st.total == |ps|
    ensures st.queued == multiset(Statuses(ps))[Queued] && st.approved == multiset(Statuses(ps))[Approved]
    ensures st.posted == multiset(Statuses(ps))[Posted] && st.failed == multiset(Statuses(ps))[Failed]
    ensures st.queued > 0 <==> exists i :: 0 <= i < |ps| && ps[i].status == Queued
    ensures st.approved > 0 <==> exists i :: 0 <= i < |ps| && ps[i].status == Approved
    ensures st.posted > 0 <==> exists i :: 0 <= i < |ps| && ps[i].status == Posted
    ensures st.failed > 0 <==> exists i :: 0 <= i < |ps| && ps[i].status == Failed
    ensures st.queued + st.approved + st.posted + st.failed <= st.total
    ensures st.queued + st.approved + st.posted + st.failed == st.total <==>
      forall i :: 0 <= i < |ps| ==> ps[i].status != OtherStatus
    ensures st.thisWeek <= st.total
    ensures st.nextScheduled.Some? <==> st.approved > 0 && exists i :: 0 <= i < |ps| && ps[i].scheduledFor.Some? && ps[i].status == Approved
    ensures st.thisWeek == |WeekIndices(ps, WeekStart(today))|
  {
    StatusesPartition(ps);
    CountInWeekIsIndexCount(ps, WeekStart(today));
    CountIsMultiplicity(ps, Queued);
    CountIsMultiplicity(ps, Approved);
    CountIsMultiplicity(ps, Posted);
    CountIsMultiplicity(ps, Failed);
    Stats(Count(ps, Queued), Count(ps, Approved), Count(ps, Posted), Count(ps, Failed), |ps|,
      CountInWeek(ps, WeekStart(today)), NextScheduled(ps))
  }

  /** The platform flags: a platform is usable when its id and the shared
      access token are set. */
  function PlatformsOf(config: Config): Platforms
  {
    Platforms(
      Truthy(config.facebookPageId) && Truthy(config.facebookAccessToken),
      Truthy(config.instagramAccountId) && Truthy(config.facebookAccessToken),
      config.autoApprove, config.postingEnabled)
  }

  /** The flags agree with the publisher: a platform shown as unusable
      never yields an id, and one shown as usable is called for posts that
      target it (Instagram when the post has an image). */
  lemma FlagsMatchPublisher(config: Config, text: string, imageUrl: Option<string>, platform: Platform, graph: Graph)
    ensures var r := PostToSocial(config, text, imageUrl, Some(platform), graph);
      && (!PlatformsOf(config).facebook ==> r.facebook == None)
      && (!PlatformsOf(config).instagram ==> r.instagram == None)
      && (PlatformsOf(config).facebook && (platform == Both || platform == Facebook) ==>
            r.calls != [] && (r.calls[0].FacebookPhoto? || r.calls[0].FacebookFeed?))
      && (PlatformsOf(config).instagram && platform == Instagram && Truthy(imageUrl) ==>
            r.calls != [] && r.calls[0].InstagramContainer?)
  {
    UnusableGetsNoId(config, text, imageUrl, platform, graph);
    UsableIsCalled(config, text, imageUrl, platform, graph);
  }

  /** The id half of `FlagsMatchPublisher`. */
  lemma UnusableGetsNoId(config: Config, text: string, imageUrl: Option<string>, platform: Platform, graph: Graph)
    ensures var r := PostToSocial(config, text, imageUrl, Some(platform), graph);
      && (!PlatformsOf(config).facebook ==> r.facebook == None)
      && (!PlatformsOf(config).instagram ==> r.instagram == None)
  {
  }

  /** The call half of `FlagsMatchPublisher`. */
  lemma UsableIsCalled(config: Config, text: string, imageUrl: Option<string>, platform: Platform, graph: Graph)
    ensures var r := PostToSocial(config, text, imageUrl, Some(platform), graph);
      && (PlatformsOf(config).facebook && (platform == Both || platform == Facebook) ==>
            r.calls != [] && (r.calls[0].FacebookPhoto? || r.calls[0].FacebookFeed?))
      && (PlatformsOf(config).instagram && platform == Instagram && Truthy(imageUrl) ==>
            r.calls != [] && r.calls[0].InstagramContainer?)
  {
    var r := PostToSocial(config, text, imageUrl, Some(platform), graph);
    var fb := FacebookPart(config, text, imageUrl, platform, graph);
    var ig := InstagramPart(config, text, imageUrl, platform, graph);
    assert r.calls == fb.calls + ig.calls;
    if platform == Instagram {
      assert fb.calls == [];
    }
  }

  // ---------------------------------------------------------------- requests

  /** The body of a POST. */
  datatype GenerateBody = GenerateBody(action: Option<string>, kind: Option<string>, customPrompt: Option<string>)

  /** `updates` of an edit or reschedule. A field is `None` when it is
      absent, null or an empty string. */
  datatype Updates = Updates(
    textContent: Option<string>,
    hashtags: Option<seq<string>>,
    scheduledFor: Field<Time>,
    platform: Option<Platform>,
    imageUrl: Option<string>)

  /** The body of a PATCH; `id` is `None` when it is missing or falsy. */
  datatype ModerateBody = ModerateBody(id: Option<PostId>, action: Option<string>, updates: Option<Updates>)

  /** The body of a PUT. */
  datatype ConfigBody = ConfigBody(
    facebookPageId: Field<string>,
    facebookAccessToken: Field<string>,
    instagramAccountId: Field<string>,
    autoApprove: Field<bool>,
    postingEnabled: Field<bool>)

  datatype Request =
    | GetRequest
    | GenerateRequest(generate: GenerateBody)
    | ModerateRequest(moderate: ModerateBody)
    | ConfigRequest(config: ConfigBody)
    | OtherRequest

  datatype Reply =
    | NotAuthorized
    | Overview(posts: seq<Post>, stats: Stats, platforms: Platforms, contentTypes: seq<Kind>)
    | WeekCreated(generated: nat, posts: seq<Post>)
    | SingleCreated(post: Post)
    | Done
    | BadRequest(error: string)
    | ServerError(error: string)
    | MethodNotAllowed

  /** The HTTP status of a reply. */
  function Code(r: Reply): nat
  {
    match r
    case NotAuthorized => 401
    case BadRequest(_) => 400
    case ServerError(_) => 500
    case MethodNotAllowed => 405
    case _ => 200
  }

  /** The configuration as read: the row, unless the read throws. */
  function ReadConfig(row: Option<Config>, fault: Option<string>): Result<Option<Config>>
  {
    if fault.Some? then Err(fault.value) else Ok(row)
  }

  /** The dashboard: the listing, its counters, the platform flags and the catalog. */
  function Dashboard(listing: Result<seq<Post>>, configRead: Result<Option<Config>>, today: int): (r: Reply)
    ensures r.Overview? <==> listing.Ok? && configRead.Ok?
    ensures r.Overview? ==> r.posts == listing.value && r.stats.total == |listing.value| && r.contentTypes == Catalog
    ensures r.Overview? ==> r.platforms == PlatformsOf(ConfigOrEmpty(configRead.value))
    ensures !r.Overview? ==> r.ServerError?
    ensures listing.Err? ==> r == ServerError(listing.error)
  {
    if listing.Err? then ServerError(listing.error)
    else if configRead.Err? then ServerError(configRead.error)
    else
      var ps := listing.value;
      Overview(ps, StatsOf(ps, today), PlatformsOf(ConfigOrEmpty(configRead.value)), Catalog)
  }

  // ---------------------------------------------------------------- POST

  /** The content type a single generation uses: `type || 'vistip'`. */
  function KindKey(kind: Option<string>): (key: string)
    ensures Truthy(kind) ==> key == kind.value
    ensures !Truthy(kind) ==> key == DefaultKind
  {
    if Truthy(kind) then kind.value else DefaultKind
  }

  /** The outcome of a request: the reply and the state afterwards. */
  datatype Handled = Handled(reply: Reply, store: Store, configRow: Option<Config>)

  /** The status every row a request inserted carries. */
  ghost predicate NewRowsHave(s: Store, store: Store, configRead: Result<Option<Config>>)
  {
    forall id :: id in store.posts && id !in s.posts ==>
      configRead.Ok? && store.posts[id].status == InsertStatus(ConfigOrEmpty(configRead.value))
  }

  /** `generate_week`: the week is generated before the configuration is
      read, then inserted in one request. */
  method GenerateWeekAction(apiKey: Option<string>, month: Month, today: int, now: Time,
                            model: nat -> Model, configRead: Result<Option<Config>>, insert: InsertReply, s: Store)
    returns (reply: Reply, store: Store)
    requires Valid(s)
    ensures Valid(store) && NewRowsHave(s, store, configRead)
    ensures reply.WeekCreated? || reply.ServerError?
    ensures reply.ServerError? ==> store == s
    ensures reply.ServerError? && configRead.Ok? && insert.Rejected? ==> reply.error == InsertFailed(insert.body)
    ensures reply.WeekCreated? <==> configRead.Ok? && insert.Accepted?
    ensures reply.WeekCreated? ==>
      && reply.generated == |reply.posts| == |WeekPlan(apiKey, month, today, model, WeekLength)|
      && store == Insert(s, WithStatus(WeekPlan(apiKey, month, today, model, WeekLength),
                                       InsertStatus(ConfigOrEmpty(configRead.value))), now).store
      && forall id :: id in s.posts ==> id in store.posts && store.posts[id] == s.posts[id]
    ensures reply.WeekCreated? ==>
      reply.posts == Insert(s, WithStatus(WeekPlan(apiKey, month, today, model, WeekLength),
                                          InsertStatus(ConfigOrEmpty(configRead.value))), now).rows
  {
    var posts := GenerateWeek(apiKey, month, today, model);
    if configRead.Err? {
      return ServerError(configRead.error), s;
    }
    var config := ConfigOrEmpty(configRead.value);
    var rows := WithStatus(posts, InsertStatus(config));
    match InsertChecked(s, rows, now, insert)
    case Err(m) =>
      reply, store := ServerError(m), s;
    case Ok(inserted) =>
      InsertKeepsValid(s, rows, now);
      InsertedWithStatus(s, posts, InsertStatus(config), now);
      reply, store := WeekCreated(|inserted.rows|, inserted.rows), inserted.store;
  }

  /** `generate_single`: one post of the requested type (`vistip` when
      none is given), scheduled for 09:00 tomorrow on both platforms. */
  method GenerateSingleAction(kind: Option<string>, customPrompt: Option<string>, apiKey: Option<string>,
                              month: Month, today: int, now: Time, model: Model,
                              configRead: Result<Option<Config>>, insert: InsertReply, s: Store)
    returns (reply: Reply, store: Store)
    requires Valid(s)
    ensures Valid(store) && NewRowsHave(s, store, configRead)
    ensures reply.SingleCreated? || reply.ServerError?
    ensures reply.ServerError? ==> store == s
    ensures !Truthy(apiKey) ==> reply == ServerError(MissingKeyError)
    ensures Truthy(apiKey) && Lookup(KindKey(kind)).None? ==> reply == ServerError(UnknownTypeError(KindKey(kind)))
    ensures reply.SingleCreated? ==>
      && configRead.Ok? && insert.Accepted? && Lookup(KindKey(kind)).Some?
      && reply.post.contentType == KindKey(kind)
      && reply.post.platform == Both
      && reply.post.status == InsertStatus(ConfigOrEmpty(configRead.value))
      && reply.post.scheduledFor == Some(NineAm(today + 1))
      && reply.post.id == s.nextId && s.nextId in store.posts && store.posts[s.nextId] == reply.post
      && forall id :: id in s.posts ==> id in store.posts && store.posts[id] == s.posts[id]
    ensures GenerateContent(KindKey(kind), apiKey, customPrompt, month, model).Err? ==>
      reply == ServerError(GenerateContent(KindKey(kind), apiKey, customPrompt, month, model).error)
    ensures reply.SingleCreated? <==>
      configRead.Ok? && insert.Accepted? && GenerateContent(KindKey(kind), apiKey, customPrompt, month, model).Ok?
    ensures reply.SingleCreated? ==>
      var d := GenerateContent(KindKey(kind), apiKey, customPrompt, month, model).value;
      && reply.post.textContent == d.textContent && reply.post.hashtags == d.hashtags
      && reply.post.imagePrompt == d.imagePrompt && reply.post.hook == d.hook && reply.post.imageUrl.None?
  {
    match GenerateContent(KindKey(kind), apiKey, customPrompt, month, model)
    case Err(m) =>
      return ServerError(m), s;
    case Ok(draft) =>
      if configRead.Err? {
        return ServerError(configRead.error), s;
      }
      var config := ConfigOrEmpty(configRead.value);
      var row := NewPost(draft, Both, InsertStatus(config), NineAm(today + 1));
      match InsertChecked(s, [row], now, insert)
      case Err(m) =>
        reply, store := ServerError(m), s;
      case Ok(inserted) =>
        InsertKeepsValid(s, [row], now);
        InsertedWithStatus(s, [row], InsertStatus(config), now);
        assert WithStatus([row], InsertStatus(config)) == [row];
        reply, store := SingleCreated(inserted.rows[0]), inserted.store;
  }

  /** The POST actions; any other action is a bad request. */
  method HandleGenerate(body: GenerateBody, apiKey: Option<string>, month: Month, today: int, now: Time,
                        weekModel: nat -> Model, singleModel: Model, configRead: Result<Option<Config>>,
                        insert: InsertReply, s: Store)
    returns (reply: Reply, store: Store)
    requires Valid(s)
    ensures Valid(store) && NewRowsHave(s, store, configRead)
    ensures reply.BadRequest? <==> body.action != Some("generate_week") && body.action != Some("generate_single")
    ensures reply.BadRequest? ==> reply == BadRequest(InvalidAction)
    ensures reply.BadRequest? || reply.ServerError? ==> store == s
    ensures reply.WeekCreated? ==> body.action == Some("generate_week")
    ensures reply.SingleCreated? ==> body.action == Some("generate_single")
    ensures body.action == Some("generate_week") ==> (reply.WeekCreated? <==> configRead.Ok? && insert.Accepted?)
    ensures body.action == Some("generate_single") ==>
      (reply.SingleCreated? <==>
         configRead.Ok? && insert.Accepted? && GenerateContent(KindKey(body.kind), apiKey, body.customPrompt, month, singleModel).Ok?)
    ensures reply.WeekCreated? || reply.SingleCreated? || reply.BadRequest? || reply.ServerError?
    ensures forall id :: id in s.posts ==> id in store.posts && store.posts[id] == s.posts[id]
  {
    if body.action == Some("generate_week") {
      reply, store := GenerateWeekAction(apiKey, month, today, now, weekModel, configRead, insert, s);
    } else if body.action == Some("generate_single") {
      reply, store := GenerateSingleAction(body.kind, body.customPrompt, apiKey, month, today, now, singleModel,
        configRead, insert, s);
    } else {
      reply, store := BadRequest(InvalidAction), s;
    }
  }

  // ---------------------------------------------------------------- PATCH

  /** The `updateData` of a moderation request: `None` / `Undefined` is a
      key absent from the JSON body, which the store leaves alone; `Null`
      clears the column. */
  datatype Change = Change(
    status: Option<Status>,
    textContent: Option<string>,
    hashtags: Option<seq<string>>,
    scheduledFor: Field<Time>,
    platform: Option<Platform>,
    imageUrl: Option<string>)

  /** A row with a change applied. */
  function ApplyChange(p: Post, c: Change): (q: Post)
    ensures q.id == p.id && q.contentType == p.contentType && q.imagePrompt == p.imagePrompt && q.hook == p.hook
    ensures q.postedAt == p.postedAt && q.metaPostId == p.metaPostId && q.errorMessage == p.errorMessage
    ensures q.createdAt == p.createdAt
    ensures q.status == (if c.status.Some? then c.status.value else p.status)
    ensures q.textContent == (if c.textContent.Some? then c.textContent.value else p.textContent)
    ensures q.hashtags == (if c.hashtags.Some? then c.hashtags.value else p.hashtags)
    ensures q.platform == (if c.platform.Some? then c.platform.value else p.platform)
    ensures q.imageUrl == (if c.imageUrl.Some? then c.imageUrl else p.imageUrl)
    ensures c.scheduledFor.Undefined? ==> q.scheduledFor == p.scheduledFor
    ensures c.scheduledFor.Null? ==> q.scheduledFor.None?
    ensures c.scheduledFor.Value? ==> q.scheduledFor == Some(c.scheduledFor.value)
  {
    Post(p.id, p.contentType,
      if c.platform.Some? then c.platform.value else p.platform,
      if c.textContent.Some? then c.textContent.value else p.textContent,
      if c.hashtags.Some? then c.hashtags.value else p.hashtags,
      p.imagePrompt,
      if c.imageUrl.Some? then c.imageUrl else p.imageUrl,
      p.hook,
      if c.status.Some? then c.status.value else p.status,
      match c.scheduledFor
      case Undefined => p.scheduledFor
      case Null => None
      case Value(t) => Some(t),
      p.postedAt, p.metaPostId, p.errorMessage, p.createdAt)
  }

  /** Applying a change twice is applying it once. */
  lemma ChangeIdempotent(p: Post, c: Change)
    ensures ApplyChange(ApplyChange(p, c), c) == ApplyChange(p, c)
  {
  }

  /** `{ status }`. */
  function StatusChange(st: Status): Change
  {
    Change(Some(st), None, None, Undefined, None, None)
  }

  /** The edit: each of text, hashtags, schedule, platform and image is
      copied only when the update holds a truthy value. An array is truthy
      even when empty. */
  function EditChange(u: Updates): (c: Change)
    ensures c.status.None?
    ensures c.textContent.None? || c.textContent.value != ""
    ensures c.imageUrl.None? || Truthy(c.imageUrl)
    ensures !c.scheduledFor.Null?
    ensures c.hashtags == u.hashtags && c.platform == u.platform
    ensures Truthy(u.textContent) ==> c.textContent == u.textContent
    ensures !Truthy(u.textContent) ==> c.textContent.None?
    ensures Truthy(u.imageUrl) ==> c.imageUrl == u.imageUrl
    ensures !Truthy(u.imageUrl) ==> c.imageUrl.None?
    ensures u.scheduledFor.Value? ==> c.scheduledFor == u.scheduledFor
    ensures !u.scheduledFor.Value? ==> c.scheduledFor.Undefined?
  {
    Change(None,
      if Truthy(u.textContent) then u.textContent else None,
      u.hashtags,
      if u.scheduledFor.Value? then u.scheduledFor else Undefined,
      u.platform,
      if Truthy(u.imageUrl) then u.imageUrl else None)
  }

  /** The reschedule: `{ scheduled_for: updates.scheduled_for }`, where an
      undefined value drops out of the JSON body. */
  function RescheduleChange(u: Updates): Change
  {
    Change(None, None, None, u.scheduledFor, None, None)
  }

  /** An edit never changes the status and never empties the text, the
      image or the schedule. */
  lemma EditKeepsWhatItCannotClear(p: Post, u: Updates)
    ensures var q := ApplyChange(p, EditChange(u));
      && q.status == p.status
      && (p.textContent != "" ==> q.textContent != "")
      && (Truthy(p.imageUrl) ==> Truthy(q.imageUrl))
      && (p.scheduledFor.Some? ==> q.scheduledFor.Some?)
      && (Truthy(u.textContent) ==> q.textContent == u.textContent.value)
      && (!Truthy(u.textContent) ==> q.textContent == p.textContent)
  {
  }

  /** A reschedule without a date leaves the row as it is; one with `null`
      takes the post out of the publishing queue. */
  lemma RescheduleEffects(p: Post, u: Updates, now: Time)
    ensures u.scheduledFor.Undefined? ==> ApplyChange(p, RescheduleChange(u)) == p
    ensures u.scheduledFor.Null? ==> !IsDue(ApplyChange(p, RescheduleChange(u)), now)
    ensures u.scheduledFor.Value? ==>
      ApplyChange(p, RescheduleChange(u)) == p.(scheduledFor := Some(u.scheduledFor.value))
  {
  }

  /** Approving a post that is scheduled in the past makes it due for the
      next publishing run; rejecting one takes it out. */
  lemma ModerationDecidesPublication(p: Post, now: Time)
    ensures p.scheduledFor.Some? && p.scheduledFor.value <= now ==> IsDue(ApplyChange(p, StatusChange(Approved)), now)
    ensures !IsDue(ApplyChange(p, StatusChange(Queued)), now)
  {
  }

  /** Applies a change to the row filed under `id`, if there is one. */
  function UpdateRow(s: Store, id: PostId, c: Change): (r: Store)
    ensures r.nextId == s.nextId && r.posts.Keys == s.posts.Keys
    ensures id in s.posts ==> r.posts[id] == ApplyChange(s.posts[id], c)
    ensures forall other :: other in s.posts && other != id ==> r.posts[other] == s.posts[other]
  {
    if id in s.posts then Replace(s, id, ApplyChange(s.posts[id], c)) else s
  }

  /** `approve_all`: every queued row becomes approved; nothing else changes. */
  function ApproveAll(s: Store): (r: Store)
    ensures r.nextId == s.nextId && r.posts.Keys == s.posts.Keys
    ensures forall id :: id in s.posts ==>
      r.posts[id] == if s.posts[id].status == Queued then s.posts[id].(status := Approved) else s.posts[id]
  {
    s.(posts := map id | id in s.posts :: if s.posts[id].status == Queued then s.posts[id].(status := Approved) else s.posts[id])
  }

  /** Approving everything twice is approving once. */
  lemma ApproveAllIdempotent(s: Store)
    ensures ApproveAll(ApproveAll(s)) == ApproveAll(s)
  {
    var once := ApproveAll(s);
    var twice := ApproveAll(once);
    assert twice.posts.Keys == once.posts.Keys;
    forall id | id in once.posts
      ensures twice.posts[id] == once.posts[id]
    {
    }
  }

  /** A write whose response is not checked: applied, silently refused,
      or thrown (500). */
  function Commit(s: Store, next: Store, write: Write): (Reply, Store)
  {
    match write
    case Applied => (Done, next)
    case Ignored => (Done, s)
    case Thrown(m) => (ServerError(m), s)
  }

  /** The six moderation actions. */
  predicate KnownAction(action: Option<string>)
  {
    action in {Some("approve"), Some("approve_all"), Some("reject"), Some("delete"), Some("edit"), Some("reschedule")}
  }

  /** An action that reads `updates`. */
  predicate ReadsUpdates(action: Option<string>)
  {
    action == Some("edit") || action == Some("reschedule")
  }

  /** The moderation actions. The id check comes first, for every action. */
  function HandleModerate(body: ModerateBody, s: Store, write: Write): (r: (Reply, Store))
    ensures r.0.Done? || r.0.BadRequest? || r.0.ServerError?
    ensures body.id.None? ==> r == (BadRequest(MissingId), s)
    ensures !r.0.Done? ==> r.1 == s
    ensures r.0.BadRequest? <==> body.id.None? || !KnownAction(body.action)
    ensures body.id.Some? && ReadsUpdates(body.action) && body.updates.None? ==> r == (ServerError(MissingUpdates), s)
    ensures body.id.Some? && KnownAction(body.action) && (!ReadsUpdates(body.action) || body.updates.Some?) ==>
      && (write.Ignored? ==> r == (Done, s))
      && (write.Thrown? ==> r == (ServerError(write.message), s))
      && (write.Applied? ==> r.0.Done?)
    ensures body.id.Some? && write.Applied? && body.action == Some("approve") ==>
      && r.1 == UpdateRow(s, body.id.value, StatusChange(Approved))
      && (body.id.value in s.posts ==> r.1.posts[body.id.value].status == Approved)
    ensures body.id.Some? && write.Applied? && body.action == Some("reject") ==>
      && r.1 == UpdateRow(s, body.id.value, StatusChange(Queued))
      && (body.id.value in s.posts ==> r.1.posts[body.id.value].status == Queued)
    ensures body.id.Some? && write.Applied? && body.action == Some("approve_all") ==> r.1 == ApproveAll(s)
    ensures body.id.Some? && write.Applied? && body.action == Some("delete") ==>
      r.1.posts.Keys == s.posts.Keys - {body.id.value}
    ensures body.id.Some? && write.Applied? && body.action == Some("edit") && body.updates.Some? ==>
      r.1 == UpdateRow(s, body.id.value, EditChange(body.updates.value))
    ensures body.id.Some? && write.Applied? && body.action == Some("reschedule") && body.updates.Some? ==>
      r.1 == UpdateRow(s, body.id.value, RescheduleChange(body.updates.value))
    ensures r.1.nextId == s.nextId
    ensures body.action != Some("delete") ==> r.1.posts.Keys == s.posts.Keys
    ensures forall id :: id in r.1.posts ==> id in s.posts
    ensures forall id :: id in r.1.posts ==>
      && r.1.posts[id].id == s.posts[id].id && r.1.posts[id].postedAt == s.posts[id].postedAt
      && r.1.posts[id].metaPostId == s.posts[id].metaPostId && r.1.posts[id].errorMessage == s.posts[id].errorMessage
    ensures forall id :: id in r.1.posts ==>
      r.1.posts[id].status == s.posts[id].status || r.1.posts[id].status == Approved || r.1.posts[id].status == Queued
    ensures body.action != Some("approve_all") && body.id.Some? ==>
      forall id :: id in r.1.posts && id != body.id.value ==> r.1.posts[id] == s.posts[id]
  {
    if body.id.None? then (BadRequest(MissingId), s)
    else
      var id := body.id.value;
      if body.action == Some("approve") then Commit(s, UpdateRow(s, id, StatusChange(Approved)), write)
      else if body.action == Some("approve_all") then Commit(s, ApproveAll(s), write)
      else if body.action == Some("reject") then Commit(s, UpdateRow(s, id, StatusChange(Queued)), write)
      else if body.action == Some("delete") then Commit(s, Remove(s, id), write)
      else if body.action == Some("edit") then
        if body.updates.None? then (ServerError(MissingUpdates), s)
        else Commit(s, UpdateRow(s, id, EditChange(body.updates.value)), write)
      else if body.action == Some("reschedule") then
        if body.updates.None? then (ServerError(MissingUpdates), s)
        else Commit(s, UpdateRow(s, id, RescheduleChange(body.updates.value)), write)
      else (BadRequest(InvalidAction), s)
  }

  /** Moderation keeps the store valid. */
  lemma ModerateKeepsValid(body: ModerateBody, s: Store, write: Write)
    requires Valid(s)
    ensures Valid(HandleModerate(body, s, write).1)
  {
  }

  // ---------------------------------------------------------------- PUT

  /** One column of the configuration patch: kept when undefined, cleared by `null`. */
  function Assign<T>(current: Option<T>, f: Field<T>): Option<T>
  {
    match f
    case Undefined => current
    case Null => None
    case Value(v) => Some(v)
  }

  /** A switch of the configuration patch; `null` reads as off. */
  function Switch(current: bool, f: Field<bool>): bool
  {
    match f
    case Undefined => current
    case Null => false
    case Value(v) => v
  }

  /** The configuration after a PUT: every defined field is written,
      `updated_at` always. A missing row stays missing. */
  function ApplyConfig(row: Option<Config>, b: ConfigBody, now: Time): (r: Option<Config>)
    ensures r.None? <==> row.None?
    ensures r.Some? ==> r.value.updatedAt == Some(now)
    ensures r.Some? && b.facebookPageId.Undefined? ==> r.value.facebookPageId == row.value.facebookPageId
    ensures r.Some? && b.facebookAccessToken.Undefined? ==> r.value.facebookAccessToken == row.value.facebookAccessToken
    ensures r.Some? && b.instagramAccountId.Undefined? ==> r.value.instagramAccountId == row.value.instagramAccountId
    ensures r.Some? && b.autoApprove.Undefined? ==> r.value.autoApprove == row.value.autoApprove
    ensures r.Some? && b.postingEnabled.Undefined? ==> r.value.postingEnabled == row.value.postingEnabled
    ensures r.Some? && b.facebookPageId.Null? ==> r.value.facebookPageId.None?
    ensures r.Some? && b.facebookPageId.Value? ==> r.value.facebookPageId == Some(b.facebookPageId.value)
    ensures r.Some? && b.facebookAccessToken.Null? ==> r.value.facebookAccessToken.None?
    ensures r.Some? && b.facebookAccessToken.Value? ==> r.value.facebookAccessToken == Some(b.facebookAccessToken.value)
    ensures r.Some? && b.instagramAccountId.Null? ==> r.value.instagramAccountId.None?
    ensures r.Some? && b.instagramAccountId.Value? ==> r.value.instagramAccountId == Some(b.instagramAccountId.value)
    ensures r.Some? && b.autoApprove.Null? ==> !r.value.autoApprove
    ensures r.Some? && b.postingEnabled.Null? ==> !r.value.postingEnabled
    ensures r.Some? && b.autoApprove.Value? ==> r.value.autoApprove == b.autoApprove.value
    ensures r.Some? && b.postingEnabled.Value? ==> r.value.postingEnabled == b.postingEnabled.value
  {
    match row
    case None => None
    case Some(c) =>
      Some(Config(
        Assign(c.facebookPageId, b.facebookPageId),
        Assign(c.facebookAccessToken, b.facebookAccessToken),
        Assign(c.instagramAccountId, b.instagramAccountId),
        Switch(c.autoApprove, b.autoApprove),
        Switch(c.postingEnabled, b.postingEnabled),
        Some(now)))
  }

  /** Sending the same configuration twice is sending it once. */
  lemma ApplyConfigIdempotent(row: Option<Config>, b: ConfigBody, t1: Time, t2: Time)
    ensures ApplyConfig(ApplyConfig(row, b, t1), b, t2) == ApplyConfig(row, b, t2)
  {
  }

  /** Turning posting off, or clearing it, stops the next publishing run
      before it reads any post; turning auto-approve on makes the next
      inserts approved. */
  lemma SwitchesReachTheCrons(row: Option<Config>, b: ConfigBody, now: Time)
    ensures b.postingEnabled == Value(false) || b.postingEnabled.Null? ==>
      !ConfigOrEmpty(ApplyConfig(row, b, now)).postingEnabled
    ensures row.Some? && b.autoApprove == Value(true) ==>
      InsertStatus(ConfigOrEmpty(ApplyConfig(row, b, now))) == Approved
  {
  }

  /** The configuration request. */
  function HandleConfig(row: Option<Config>, b: ConfigBody, now: Time, write: Write): (r: (Reply, Option<Config>))
    ensures r.0.Done? || r.0.ServerError?
    ensures write.Applied? ==> r.1 == ApplyConfig(row, b, now)
    ensures !write.Applied? ==> r.1 == row
    ensures r.0.ServerError? <==> write.Thrown?
  {
    match write
    case Applied => (Done, ApplyConfig(row, b, now))
    case Ignored => (Done, row)
    case Thrown(m) => (ServerError(m), row)
  }

  // ---------------------------------------------------------------- handler

  /** What the store and the oracles do during one admin request. */
  datatype Backend = Backend(
    listing: Result<seq<Post>>,
    configFault: Option<string>,
    insert: InsertReply,
    write: Write,
    weekModel: nat -> Model,
    singleModel: Model)

  /** The admin handler. */
  method Handle(req: Request, header: Option<string>, adminPassword: Option<string>,
                apiKey: Option<string>, month: Month, today: int, now: Time,
                db: Backend, s: Store, row: Option<Config>)
    returns (out: Handled)
    requires Valid(s)
    ensures out.reply.NotAuthorized? <==> !Authorized(header, adminPassword)
    ensures out.reply.NotAuthorized? ==> out.store == s && out.configRow == row
    ensures Valid(out.store)
    ensures Code(out.reply) in {200, 400, 401, 405, 500}
    ensures req.OtherRequest? && Authorized(header, adminPassword) ==> out.reply == MethodNotAllowed
    ensures !req.ConfigRequest? ==> out.configRow == row
    ensures req.GetRequest? || req.ConfigRequest? ==> out.store == s
    ensures req.GetRequest? && Authorized(header, adminPassword) ==>
      out.reply == Dashboard(db.listing, ReadConfig(row, db.configFault), today)
    ensures req.ModerateRequest? && Authorized(header, adminPassword) ==>
      (out.reply, out.store) == HandleModerate(req.moderate, s, db.write)
    ensures req.ConfigRequest? && Authorized(header, adminPassword) ==>
      (out.reply, out.configRow) == HandleConfig(row, req.config, now, db.write)
    ensures forall id :: id in out.store.posts ==>
      (id in s.posts && out.store.posts[id].status == s.posts[id].status) ||
      out.store.posts[id].status == Approved || out.store.posts[id].status == Queued
  {
    out := Handled(NotAuthorized, s, row);
    if !Authorized(header, adminPassword) {
      return;
    }
    match req
    case GetRequest =>
      out := Handled(Dashboard(db.listing, ReadConfig(row, db.configFault), today), s, row);
    case GenerateRequest(body) =>
      var configRead := ReadConfig(row, db.configFault);
      var reply, store := HandleGenerate(body, apiKey, month, today, now, db.weekModel, db.singleModel,
        configRead, db.insert, s);
      out := Handled(reply, store, row);
    case ModerateRequest(body) =>
      var r := HandleModerate(body, s, db.write);
      ModerateKeepsValid(body, s, db.write);
      out := Handled(r.0, r.1, row);
    case ConfigRequest(body) =>
      var r := HandleConfig(row, body, now, db.write);
      out := Handled(r.0, s, r.1);
    case OtherRequest =>
      out := Handled(MethodNotAllowed, s, row);
  }
}

=== FILE: content_engine.dfy ===
/** The content generator: the catalog of post types, the season the
    prompts are framed in, the single-post generator over a text-model
    oracle, and the week planner. */
module ContentEngine {
  import opened Wrappers
  import opened Js
  import opened Domain

  /** The entries of `CONTENT_TYPES`. */
  datatype Kind = Vistip | SpotHighlight | Seizoenstip | VangstWeek | FunFact | Interactief | GearTip

  /** The catalog in declaration order, which is `Object.keys` order. */
  const Catalog: seq<Kind> := [Vistip, SpotHighlight, Seizoenstip, VangstWeek, FunFact, Interactief, GearTip]

  /** The key a type is requested and stored by. */
  function Key(k: Kind): string
  {
    match k
    case Vistip => "vistip"
    case SpotHighlight => "spot_highlight"
    case Seizoenstip => "seizoenstip"
    case VangstWeek => "vangst_week"
    case FunFact => "fun_fact"
    case Interactief => "interactief"
    case GearTip => "gear_tip"
  }

  /** The `label` the prompts name the type by. */
  function Name(k: Kind): string
  {
    match k
    case Vistip => "Vistip"
    case SpotHighlight => "Stek Spotlight"
    case Seizoenstip => "Seizoenstip"
    case VangstWeek => "Vangst van de Week"
    case FunFact => "Fun Fact"
    case Interactief => "Interactieve Vraag"
    case GearTip => "Gear & Aas Tip"
  }

  const VistipDescription := "Praktische vistip over techniek, aas of tactiek"
  const SpotHighlightDescription := "Interessant watertype of regio uitlichten (geen exacte locaties)"
  const SeizoenstipDescription := "Seizoensgebonden advies: wat vangt nu goed en waarom"
  const VangstWeekDescription := "Highlight een mooie vangst of vissoort"
  const FunFactDescription := "Verrassend weetje over vissen, water of natuur in NL"
  const InteractiefDescription := "Engagementvraag aan de community"
  const GearTipDescription := "Tip over materiaal, aas of uitrusting"

  /** The `description` a prompt without a topic falls back on. */
  function Description(k: Kind): string
  {
    match k
    case Vistip => VistipDescription
    case SpotHighlight => SpotHighlightDescription
    case Seizoenstip => SeizoenstipDescription
    case VangstWeek => VangstWeekDescription
    case FunFact => FunFactDescription
    case Interactief => InteractiefDescription
    case GearTip => GearTipDescription
  }

  /** The first type in `ks` whose key is `key`. */
  function Find(ks: seq<Kind>, key: string): (r: Option<Kind>)
    ensures r.Some? ==> r.value in ks && Key(r.value) == key
    ensures r.None? ==> forall i :: 0 <= i < |ks| ==> Key(ks[i]) != key
  {
    if |ks| == 0 then None
    else if Key(ks[0]) == key then Some(ks[0])
    else Find(ks[1..], key)
  }

  /** `CONTENT_TYPES[key]` for the catalog's own keys. */
  function Lookup(key: string): Option<Kind>
  {
    Find(Catalog, key)
  }

  /** `getMonth()`: 0 is January. */
  type Month = m: int | 0 <= m < 12

  datatype Season = Lente | Zomer | Herfst | Winter

  /** `getSeason()`: three months per season, spring from March. */
  function SeasonOf(month: Month): (s: Season)
    ensures s == Lente <==> 2 <= month <= 4
    ensures s == Zomer <==> 5 <= month <= 7
    ensures s == Herfst <==> 8 <= month <= 10
    ensures s == Winter <==> month == 11 || month <= 1
  {
    if 2 <= month <= 4 then Lente
    else if 5 <= month <= 7 then Zomer
    else if 8 <= month <= 10 then Herfst
    else Winter
  }

  function NextSeason(s: Season): Season
  {
    match s
    case Lente => Zomer
    case Zomer => Herfst
    case Herfst => Winter
    case Winter => Lente
  }

  /** Three months on, the season has moved on by exactly one. */
  lemma SeasonsAdvance(month: Month)
    ensures SeasonOf((month + 3) % 12) == NextSeason(SeasonOf(month))
  {
  }

  const JanuaryContext := "- Winter: nachtvissen populair, karper minder actief, snoek pakt goed op dood aas"
  const FebruaryContext := "- Februari: laatste maand voor roofvis, maak er gebruik van! Karper begint te roeren"
  const MarchContext := "- Maart: gesloten tijd roofvis begint. Focus op witvis, karper, brasem. Voorjaar komt eraan!"
  const AprilContext := "- April: karperseizoen komt op gang, nature awakens, veel vissers aan het water"
  const MayContext := "- Mei: topmaand karper, brasem en zeelt. Veel activiteit, lange dagen"
  const JuneContext := "- Juni: laatste stuk gesloten tijd roofvis. Karper op z'n best. Snoekbaars gaat binnenkort weer open!"
  const JulyContext := "- Juli: alles open! Roofvisseizoen begint weer. Zomerse nachten = nachtvissen"
  const AugustContext := "- Augustus: topmaand voor alle vissoorten. Warm water, actieve vis"
  const SeptemberContext := "- September: herfst begint, snoek wordt actiever, karper vreet zich vol voor de winter"
  const OctoberContext := "- Oktober: gouden herfst, snoek op z'n best, grote karpers mogelijk"
  const NovemberContext := "- November: wintervissen begint, meerval laatste kansen, snoek blijft goed"
  const DecemberContext := "- December: rustig aan het water, echte diehards. Dead baiting voor snoek, winterkarper"

  /** `getSeasonalContext()`: a talking point for every month; the `|| ''`
      fallback is never taken for a month `getMonth` can return. */
  function SeasonalContext(month: Month): (line: string)
    ensures line != ""
  {
    match month
    case 0 => JanuaryContext
    case 1 => FebruaryContext
    case 2 => MarchContext
    case 3 => AprilContext
    case 4 => MayContext
    case 5 => JuneContext
    case 6 => JulyContext
    case 7 => AugustContext
    case 8 => SeptemberContext
    case 9 => OctoberContext
    case 10 => NovemberContext
    case _ => DecemberContext
  }

  /** The user message: the caller's topic when one is given, otherwise the
      type's description and an instruction to pick a seasonal topic. */
  function UserPrompt(ct: Kind, customPrompt: Option<string>): (p: string)
    ensures StartsWith(p, "Maak een " + Name(ct) + " post")
    ensures Truthy(customPrompt) ==> p == "Maak een " + Name(ct) + " post over: " + customPrompt.value
    ensures !Truthy(customPrompt) ==> Occurs(Description(ct), p)
  {
    if Truthy(customPrompt) then
      "Maak een " + Name(ct) + " post over: " + customPrompt.value
    else
      var head := "Maak een " + Name(ct) + " post. ";
      var p := head + Description(ct) + ". Kies zelf een interessant onderwerp dat past bij het seizoen.";
      assert p[|head|..|head| + |Description(ct)|] == Description(ct);
      assert OccursAt(p, Description(ct), |head|);
      p
  }

  /** A chat-completion request: the key it is sent with, the month the
      system prompt's season was computed for, and the user message. */
  datatype ModelRequest = ModelRequest(apiKey: string, month: Month, userPrompt: string)

  /** What the model call yields: the parsed JSON object, a non-2xx response
      (with the API's message or the status text), or content that did not
      parse. */
  datatype ModelReply =
    | Completion(text: string, hashtags: Option<seq<string>>, imagePrompt: Option<string>, hook: Option<string>)
    | HttpFailure(message: string)
    | Malformed(message: string)

  type Model = ModelRequest -> ModelReply

  const MissingKeyError := "OpenAI API key niet geconfigureerd"

  function UnknownTypeError(key: string): string
  {
    "Onbekend content type: " + key
  }

  /** The draft a completion becomes: missing hashtags become `[]`, a falsy
      image prompt becomes `null`, a falsy hook becomes the first line. */
  function DraftOf(key: string, text: string, hashtags: Option<seq<string>>, imagePrompt: Option<string>, hook: Option<string>): (d: Draft)
    ensures d.contentType == key && d.textContent == text
    ensures d.hashtags == if hashtags.Some? then hashtags.value else []
    ensures d.imagePrompt.Some? <==> Truthy(imagePrompt)
    ensures d.imagePrompt.Some? ==> d.imagePrompt == imagePrompt
    ensures Truthy(hook) ==> d.hook == hook.value
    ensures !Truthy(hook) ==> d.hook <= text && '\n' !in d.hook && (d.hook == text || text[|d.hook|] == '\n')
  {
    Draft(key, text, hashtags.GetOr([]),
          if Truthy(imagePrompt) then imagePrompt else None,
          if Truthy(hook) then hook.value else FirstLine(text))
  }

  /** `generateContent`: the key and the type are checked before the model
      is asked; a failed or unparseable reply is an error, never retried. */
  function GenerateContent(key: string, apiKey: Option<string>, customPrompt: Option<string>, month: Month, model: Model): (r: Result<Draft>)
    ensures !Truthy(apiKey) ==> r == Err(MissingKeyError)
    ensures Truthy(apiKey) && Lookup(key).None? ==> r == Err(UnknownTypeError(key))
    ensures r.Ok? ==> Lookup(key).Some? && r.value.contentType == key
    ensures r.Ok? <==> Truthy(apiKey) && Lookup(key).Some?
                       && model(ModelRequest(apiKey.value, month, UserPrompt(Lookup(key).value, customPrompt))).Completion?
    ensures Truthy(apiKey) && Lookup(key).Some? ==>
      var c := model(ModelRequest(apiKey.value, month, UserPrompt(Lookup(key).value, customPrompt)));
      && (c.Completion? ==> r == Ok(DraftOf(key, c.text, c.hashtags, c.imagePrompt, c.hook)))
      && (c.HttpFailure? ==> r == Err("OpenAI error: " + c.message))
      && (c.Malformed? ==> r == Err(c.message))
  {
    if !Truthy(apiKey) then Err(MissingKeyError)
    else match Lookup(key)
      case None => Err(UnknownTypeError(key))
      case Some(ct) =>
        match model(ModelRequest(apiKey.value, month, UserPrompt(ct, customPrompt)))
        case Completion(text, tags, imagePrompt, hook) => Ok(DraftOf(key, text, tags, imagePrompt, hook))
        case HttpFailure(m) => Err("OpenAI error: " + m)
        case Malformed(m) => Err(m)
  }

  const WeekLength: nat := 7

  /** The content type attempt `i` of a week uses: `types[i % types.length]`. */
  function WeekType(i: nat): string
  {
    Key(Catalog[i % |Catalog|])
  }

  /** The row attempt `i` of a week contributes, if its generation succeeds:
      platform `both`, status `queued`, scheduled at 09:00 on day `today + i`. */
  function Planned(apiKey: Option<string>, month: Month, today: int, model: nat -> Model, i: nat): (r: Option<NewPost>)
    ensures r.Some? ==> r.value.draft.contentType == WeekType(i)
    ensures r.Some? ==> r.value.platform == Both && r.value.status == Queued
    ensures r.Some? ==> r.value.scheduledFor == NineAm(today + i)
    ensures r.Some? <==> GenerateContent(WeekType(i), apiKey, None, month, model(i)).Ok?
    ensures r.Some? ==> r.value.draft == GenerateContent(WeekType(i), apiKey, None, month, model(i)).value
  {
    match GenerateContent(WeekType(i), apiKey, None, month, model(i))
    case Ok(d) => Some(NewPost(d, Both, Queued, NineAm(today + i)))
    case Err(_) => None
  }

  /** The attempt outcomes of a week, as a function of the attempt index. */
  function Attempts(apiKey: Option<string>, month: Month, today: int, model: nat -> Model): nat -> Option<NewPost>
  {
    (i: nat) => Planned(apiKey, month, today, model, i)
  }

  /** The values of the first `n` outcomes, absent ones skipped, in order. */
  function Collect<T>(f: nat -> Option<T>, n: nat): seq<T>
  {
    if n == 0 then []
    else Collect(f, n - 1) + (if f(n - 1).Some? then [f(n - 1).value] else [])
  }

  /** One more outcome appends its value, if it has one. */
  lemma CollectStep<T>(f: nat -> Option<T>, n: nat)
    ensures Collect(f, n + 1) == Collect(f, n) + if f(n).Some? then [f(n).value] else []
  {
  }

  /** At most `n` values, and a value is collected exactly when some
      outcome before `n` is that value. */
  lemma {:induction false} CollectFacts<T>(f: nat -> Option<T>, n: nat)
    ensures |Collect(f, n)| <= n
    ensures forall p :: p in Collect(f, n) <==> exists i :: 0 <= i < n && f(i) == Some(p)
  {
    if n > 0 {
      CollectFacts(f, n - 1);
      var prev := Collect(f, n - 1);
      assert Collect(f, n) == prev + (if f(n - 1).Some? then [f(n - 1).value] else []);
      forall p
        ensures p in Collect(f, n) <==> exists i :: 0 <= i < n && f(i) == Some(p)
      {
        if p in Collect(f, n) && p !in prev {
          assert f(n - 1) == Some(p);
        }
        if exists i :: 0 <= i < n && f(i) == Some(p) {
          var i :| 0 <= i < n && f(i) == Some(p);
          if i < n - 1 {
            assert p in prev;
          }
        }
      }
    }
  }

  /** Outcomes scheduled at 09:00 on day `today + i` are collected with
      strictly increasing schedules, all within days `today .. today + n - 1`. */
  lemma {:induction false} CollectSchedules(f: nat -> Option<NewPost>, today: int, n: nat)
    requires forall i: nat :: f(i).Some? ==> f(i).value.scheduledFor == NineAm(today + i)
    ensures forall j :: 0 <= j < |Collect(f, n)| ==>
      NineAm(today) <= Collect(f, n)[j].scheduledFor < NineAm(today + n)
    ensures forall j, k :: 0 <= j < k < |Collect(f, n)| ==>
      Collect(f, n)[j].scheduledFor < Collect(f, n)[k].scheduledFor
  {
    if n > 0 {
      var d := n - 1;
      CollectSchedules(f, today, d);
      var prev := Collect(f, d);
      var ps := Collect(f, n);
      NineAmOrder(today + d, today + n);
      NineAmOrder(today, today + d);
      if f(d).Some? {
        var last := f(d).value;
        assert ps == prev + [last];
        assert last.scheduledFor == NineAm(today + d);
        forall j | 0 <= j < |ps|
          ensures NineAm(today) <= ps[j].scheduledFor < NineAm(today + n)
        {
          if j < |prev| {
            assert ps[j] == prev[j];
          }
        }
        forall j, k | 0 <= j < k < |ps|
          ensures ps[j].scheduledFor < ps[k].scheduledFor
        {
          assert ps[j] == prev[j];
          if k < |prev| {
            assert ps[k] == prev[k];
          }
        }
      } else {
        assert ps == prev;
      }
    }
  }

  /** When no outcome before `n` is absent, all `n` are collected in order. */
  lemma {:induction false} CollectComplete<T>(f: nat -> Option<T>, n: nat)
    requires forall i :: 0 <= i < n ==> f(i).Some?
    ensures |Collect(f, n)| == n
    ensures forall i :: 0 <= i < n ==> Some(Collect(f, n)[i]) == f(i)
  {
    if n > 0 {
      CollectComplete(f, n - 1);
    }
  }

  /** When every outcome before `n` is absent nothing is collected. */
  lemma {:induction false} CollectNone<T>(f: nat -> Option<T>, n: nat)
    requires forall i :: 0 <= i < n ==> f(i).None?
    ensures Collect(f, n) == []
  {
    if n > 0 {
      CollectNone(f, n - 1);
    }
  }

  /** The rows of the first `n` attempts, failures skipped: the reference
      the week planner's loop is proved against. */
  function WeekPlan(apiKey: Option<string>, month: Month, today: int, model: nat -> Model, n: nat): seq<NewPost>
  {
    Collect(Attempts(apiKey, month, today, model), n)
  }

  /** A row is in the plan exactly when some attempt before `n` produced it;
      at most `n` rows, scheduled strictly later in plan order, all within
      days `today .. today + n - 1`. */
  lemma WeekPlanFacts(apiKey: Option<string>, month: Month, today: int, model: nat -> Model, n: nat)
    ensures |WeekPlan(apiKey, month, today, model, n)| <= n
    ensures forall p :: p in WeekPlan(apiKey, month, today, model, n) <==>
      exists i :: 0 <= i < n && Planned(apiKey, month, today, model, i) == Some(p)
    ensures forall j :: 0 <= j < |WeekPlan(apiKey, month, today, model, n)| ==>
      NineAm(today) <= WeekPlan(apiKey, month, today, model, n)[j].scheduledFor < NineAm(today + n)
    ensures forall j, k :: 0 <= j < k < |WeekPlan(apiKey, month, today, model, n)| ==>
      WeekPlan(apiKey, month, today, model, n)[j].scheduledFor < WeekPlan(apiKey, month, today, model, n)[k].scheduledFor
  {
    var f := Attempts(apiKey, month, today, model);
    assert forall i: nat :: f(i) == Planned(apiKey, month, today, model, i);
    CollectFacts(f, n);
    CollectSchedules(f, today, n);
  }

  /** When every generation succeeds the plan holds all `n` rows in attempt
      order; for a week that is each catalog type once, in catalog order. */
  lemma WeekPlanComplete(apiKey: Option<string>, month: Month, today: int, model: nat -> Model, n: nat)
    requires forall i :: 0 <= i < n ==> GenerateContent(WeekType(i), apiKey, None, month, model(i)).Ok?
    ensures var ps := WeekPlan(apiKey, month, today, model, n);
      && |ps| == n
      && forall i :: 0 <= i < n ==> Some(ps[i]) == Planned(apiKey, month, today, model, i)
  {
    CollectComplete(Attempts(apiKey, month, today, model), n);
  }

  /** Attempt `i` reaches the plan exactly when its generation succeeds:
      then the plan holds the generated draft, scheduled on day `today + i`. */
  lemma WeekPlanKeepsSuccesses(apiKey: Option<string>, month: Month, today: int, model: nat -> Model, n: nat)
    ensures var ps := WeekPlan(apiKey, month, today, model, n);
      forall i :: 0 <= i < n ==>
        (GenerateContent(WeekType(i), apiKey, None, month, model(i)).Ok? <==>
         exists j :: 0 <= j < |ps| && ps[j].scheduledFor == NineAm(today + i))
    ensures var ps := WeekPlan(apiKey, month, today, model, n);
      forall i :: 0 <= i < n && GenerateContent(WeekType(i), apiKey, None, month, model(i)).Ok? ==>
        NewPost(GenerateContent(WeekType(i), apiKey, None, month, model(i)).value, Both, Queued, NineAm(today + i)) in ps
  {
    var ps := WeekPlan(apiKey, month, today, model, n);
    forall i | 0 <= i < n
      ensures GenerateContent(WeekType(i), apiKey, None, month, model(i)).Ok? <==>
              exists j :: 0 <= j < |ps| && ps[j].scheduledFor == NineAm(today + i)
      ensures GenerateContent(WeekType(i), apiKey, None, month, model(i)).Ok? ==>
        NewPost(GenerateContent(WeekType(i), apiKey, None, month, model(i)).value, Both, Queued, NineAm(today + i)) in ps
    {
      AttemptReachesPlan(apiKey, month, today, model, n, i);
    }
  }

  /** One attempt of `WeekPlanKeepsSuccesses`. */
  lemma AttemptReachesPlan(apiKey: Option<string>, month: Month, today: int, model: nat -> Model, n: nat, i: nat)
    requires i < n
    ensures var ps := WeekPlan(apiKey, month, today, model, n);
      && (GenerateContent(WeekType(i), apiKey, None, month, model(i)).Ok? <==>
          exists j :: 0 <= j < |ps| && ps[j].scheduledFor == NineAm(today + i))
      && (GenerateContent(WeekType(i), apiKey, None, month, model(i)).Ok? ==>
          NewPost(GenerateContent(WeekType(i), apiKey, None, month, model(i)).value, Both, Queued, NineAm(today + i)) in ps)
  {
    var ps := WeekPlan(apiKey, month, today, model, n);
    var planned := Planned(apiKey, month, today, model, i);
    if planned.Some? {
      WeekPlanFacts(apiKey, month, today, model, n);
      assert planned.value in ps;
      var j :| 0 <= j < |ps| && ps[j] == planned.value;
    }
    if exists j :: 0 <= j < |ps| && ps[j].scheduledFor == NineAm(today + i) {
      var j :| 0 <= j < |ps| && ps[j].scheduledFor == NineAm(today + i);
      WeekPlanFacts(apiKey, month, today, model, n);
      assert ps[j] in ps;
      var k :| 0 <= k < n && Planned(apiKey, month, today, model, k) == Some(ps[j]);
      SameNineAmSameDay(today, k, i, ps[j].scheduledFor);
    }
  }

  /** Without an API key every attempt fails and the week is empty. */
  lemma WeekPlanWithoutKey(apiKey: Option<string>, month: Month, today: int, model: nat -> Model, n: nat)
    requires !Truthy(apiKey)
    ensures WeekPlan(apiKey, month, today, model, n) == []
  {
    CollectNone(Attempts(apiKey, month, today, model), n);
  }

  /** The seven attempts of a full week use the seven catalog types in order. */
  lemma WeekCoversCatalog(i: nat)
    requires i < WeekLength
    ensures WeekType(i) == Key(Catalog[i])
  {
  }

  /** Every planned row targets both platforms and waits in the queue;
      schedules strictly increase along the plan. */
  lemma WeekPlanShape(apiKey: Option<string>, month: Month, today: int, model: nat -> Model, n: nat)
    ensures var ps := WeekPlan(apiKey, month, today, model, n);
      && |ps| <= n
      && (forall j :: 0 <= j < |ps| ==> ps[j].platform == Both && ps[j].status == Queued)
      && (forall j, k :: 0 <= j < k < |ps| ==> ps[j].scheduledFor < ps[k].scheduledFor)
  {
    var ps := WeekPlan(apiKey, month, today, model, n);
    WeekPlanFacts(apiKey, month, today, model, n);
    forall j | 0 <= j < |ps|
      ensures ps[j].platform == Both && ps[j].status == Queued
    {
      assert ps[j] in ps;
    }
  }

  /** Runs the first `n` attempts in order, keeping the value of each one
      that produced a value: the loop of the week planner, for any attempt. */
  method RunAttempts<T>(attempt: nat -> Option<T>, n: nat) returns (kept: seq<T>)
    ensures kept == Collect(attempt, n)
  {
    kept := [];
    var i: nat := 0;
    while i < n
      invariant i <= n
      invariant kept == Collect(attempt, i)
    {
      var row := attempt(i);
      CollectStep(attempt, i);
      if row.Some? {
        kept := kept + [row.value];
      }
      i := i + 1;
    }
  }

  /** `generateWeekContent`: seven attempts, one per day from today, each
      failure skipped. The model oracle is indexed by attempt. */
  method GenerateWeek(apiKey: Option<string>, month: Month, today: int, model: nat -> Model) returns (posts: seq<NewPost>)
    ensures |posts| <= WeekLength
    ensures forall j :: 0 <= j < |posts| ==> posts[j].platform == Both && posts[j].status == Queued
    ensures forall j, k :: 0 <= j < k < |posts| ==> posts[j].scheduledFor < posts[k].scheduledFor
    ensures posts == WeekPlan(apiKey, month, today, model, WeekLength)
    ensures forall i :: 0 <= i < WeekLength && GenerateContent(WeekType(i), apiKey, None, month, model(i)).Ok? ==>
      NewPost(GenerateContent(WeekType(i), apiKey, None, month, model(i)).value, Both, Queued, NineAm(today + i)) in posts
  {
    posts := RunAttempts(Attempts(apiKey, month, today, model), WeekLength);
    WeekPlanShape(apiKey, month, today, model, WeekLength);
    WeekPlanKeepsSuccesses(apiKey, month, today, model, WeekLength);
  }
}

=== FILE: cron_generate.dfy ===
/** The weekly generation run: checks the cron secret, generates a week of
    posts, inserts them with the status the auto-approve switch dictates,
    and reports to the operator. */
module CronGenerate {
  import opened Wrappers
  import opened Js
  import opened Domain
  import opened Auth
  import opened ContentEngine
  import opened PostStore

  /** Characters of post text the operator notice previews. */
  const PreviewLength: nat := 50

  /** Line `i + 1` of the notice: the type and the first fifty characters. */
  function GenerationLines(rows: seq<Post>): (lines: seq<SummaryLine>)
    ensures |lines| == |rows|
    ensures forall i :: 0 <= i < |rows| ==>
      && lines[i].Generated? && lines[i].number == i + 1 && lines[i].contentType == rows[i].contentType
      && lines[i].preview <= rows[i].textContent
      && |lines[i].preview| == (if |rows[i].textContent| <= PreviewLength then |rows[i].textContent| else PreviewLength)
  {
    seq(|rows|, i requires 0 <= i < |rows| => Generated(i + 1, rows[i].contentType, Prefix(rows[i].textContent, PreviewLength)))
  }

  datatype Reply = Unauthorized | Created(count: nat) | Crashed(message: string)

  /** A run: its response, the store afterwards, and the operator notice. */
  datatype Run = Run(reply: Reply, store: Store, notice: Option<Notice>)

  /** The generation cron. The configuration is read before generating;
      the model oracle answers attempt `i` of the week. */
  method GenerateRun(header: Option<string>, cronSecret: Option<string>, configRead: Result<Option<Config>>,
                     apiKey: Option<string>, month: Month, today: int, now: Time,
                     model: nat -> Model, insert: InsertReply, s: Store)
    returns (run: Run)
    requires Valid(s)
    ensures run.reply.Unauthorized? <==> !Authorized(header, cronSecret)
    ensures run.reply.Created? <==> Authorized(header, cronSecret) && configRead.Ok? && insert.Accepted?
    ensures !run.reply.Created? ==> run.store == s
    ensures run.reply.Unauthorized? ==> run.notice.None?
    ensures run.reply.Crashed? ==> run.notice == Some(ErrorReport(run.reply.message))
    ensures run.reply.Crashed? && configRead.Ok? && insert.Rejected? ==> run.reply.message == InsertFailed(insert.body)
    ensures Valid(run.store)
    ensures run.reply.Created? ==>
      var config := ConfigOrEmpty(configRead.value);
      var plan := WeekPlan(apiKey, month, today, model, WeekLength);
      && run.reply.count == |plan| <= WeekLength
      && run.store == Insert(s, WithStatus(plan, InsertStatus(config)), now).store
      && (forall id :: id in s.posts ==> id in run.store.posts && run.store.posts[id] == s.posts[id])
      && (forall id :: id in run.store.posts && id !in s.posts ==> run.store.posts[id].status == InsertStatus(config))
      && run.notice.Some? && run.notice.value.GenerationReport?
      && run.notice.value.count == run.reply.count && run.notice.value.autoApproved == config.autoApprove
      && run.notice.value.lines == GenerationLines(Insert(s, WithStatus(plan, InsertStatus(config)), now).rows)
    ensures run.reply.Created? && !Truthy(apiKey) ==> run.reply.count == 0
  {
    if !Authorized(header, cronSecret) {
      return Run(Unauthorized, s, None);
    }
    if configRead.Err? {
      return Run(Crashed(configRead.error), s, Some(ErrorReport(configRead.error)));
    }
    var config := ConfigOrEmpty(configRead.value);
    var posts := GenerateWeek(apiKey, month, today, model);
    if !Truthy(apiKey) {
      WeekPlanWithoutKey(apiKey, month, today, model, WeekLength);
    }
    var rows := WithStatus(posts, InsertStatus(config));
    match InsertChecked(s, rows, now, insert)
    case Err(m) =>
      run := Run(Crashed(m), s, Some(ErrorReport(m)));
    case Ok(inserted) =>
      InsertKeepsValid(s, rows, now);
      InsertedWithStatus(s, posts, InsertStatus(config), now);
      var count := |inserted.rows|;
      run := Run(Created(count), inserted.store,
        Some(GenerationReport(count, config.autoApprove, GenerationLines(inserted.rows))));
  }
}

=== FILE: cron_post.dfy ===
/** The daily publishing run: checks the cron secret and the posting
    switch, takes up to five due approved posts, publishes each, records
    the outcome on the post, and reports to the operator. */
module CronPost {
  import opened Wrappers
  import opened Js
  import opened Domain
  import opened Auth
  import opened Social
  import opened PostStore

  /** The text sent to the platforms: the post text, then a blank line and
      the hashtags separated by spaces when there are any. */
  function FullText(p: Post): (t: string)
    ensures StartsWith(t, p.textContent)
    ensures t == p.textContent <==> p.hashtags == []
  {
    if |p.hashtags| > 0 then p.textContent + "\n\n" + Join(p.hashtags, " ") else p.textContent
  }

  /** Every hashtag of the post appears in the text sent. */
  lemma HashtagsSent(p: Post, i: nat)
    requires i < |p.hashtags|
    ensures Occurs(p.hashtags[i], FullText(p))
  {
    var tags := Join(p.hashtags, " ");
    JoinContains(p.hashtags, " ", i);
    var k :| OccursAt(tags, p.hashtags[i], k);
    var head := p.textContent + "\n\n";
    assert FullText(p) == head + tags;
    assert OccursAt(FullText(p), p.hashtags[i], |head| + k) by {
      assert (head + tags)[|head| + k..|head| + k + |p.hashtags[i]|] == tags[k..k + |p.hashtags[i]|];
    }
  }

  /** `image_url || null`. */
  function ImageOf(p: Post): (u: Option<string>)
    ensures Truthy(u) <==> Truthy(p.imageUrl)
    ensures u.Some? ==> u == p.imageUrl
  {
    if Truthy(p.imageUrl) then p.imageUrl else None
  }

  /** `facebook || instagram || null`: the first platform id that is a
      non-empty string, Facebook's first. */
  function MetaId(o: Outcome): (m: Option<string>)
    ensures m.None? || Truthy(m)
    ensures Truthy(m) <==> Truthy(o.facebook) || Truthy(o.instagram)
    ensures Truthy(o.facebook) ==> m == o.facebook
    ensures !Truthy(o.facebook) && Truthy(o.instagram) ==> m == o.instagram
  {
    Or(Or(o.facebook, o.instagram), None)
  }

  /** The columns a successful dispatch writes back. */
  datatype Verdict = Verdict(status: Status, metaPostId: Option<string>, errorMessage: Option<string>)

  /** A post fails only when some platform reported an error and none
      returned an id; the errors are kept, joined by `"; "`, either way. */
  function Classify(o: Outcome): (v: Verdict)
    ensures v.status == Posted || v.status == Failed
    ensures v.status == Failed <==> o.errors != [] && !Truthy(o.facebook) && !Truthy(o.instagram)
    ensures v.metaPostId == MetaId(o)
    ensures v.errorMessage.None? <==> o.errors == []
  {
    var id := MetaId(o);
    Verdict(
      if |o.errors| > 0 && !Truthy(id) then Failed else Posted,
      id,
      if |o.errors| > 0 then Some(Join(o.errors, "; ")) else None)
  }

  /** Every platform error ends up in the recorded error message. */
  lemma ErrorsRecorded(o: Outcome, i: nat)
    requires i < |o.errors|
    ensures Classify(o).errorMessage.Some?
    ensures Occurs(o.errors[i], Classify(o).errorMessage.value)
  {
    JoinContains(o.errors, "; ", i);
  }

  /** One platform succeeding is enough: the post counts as published
      with that platform's id, and the other platform's error is kept. */
  lemma OneSuccessSuffices(config: Config, p: Post, graph: Graph)
    requires var o := PostToSocial(config, FullText(p), ImageOf(p), Some(p.platform), graph);
      Truthy(o.facebook) || Truthy(o.instagram)
    ensures Classify(PostToSocial(config, FullText(p), ImageOf(p), Some(p.platform), graph)).status == Posted
  {
  }

  /** A post that no platform was tried for is marked posted, with no id
      and no error. */
  lemma NothingTriedIsPosted(config: Config, p: Post, graph: Graph)
    requires p.platform == OtherPlatform || (!Truthy(config.facebookPageId) && !Truthy(config.instagramAccountId))
    ensures Classify(PostToSocial(config, FullText(p), ImageOf(p), Some(p.platform), graph)) == Verdict(Posted, None, None)
  {
    NothingToTry(config, FullText(p), ImageOf(p), p.platform, graph);
  }

  /** The row after the outcome write. */
  function Record(q: Post, v: Verdict, now: Time): Post
  {
    q.(status := v.status, postedAt := Some(now), metaPostId := v.metaPostId, errorMessage := v.errorMessage)
  }

  /** The row after the failure write of the `catch` branch. */
  function MarkFailed(q: Post, message: string): Post
  {
    q.(status := Failed, errorMessage := Some(message))
  }

  /** What the run reports for one post. */
  datatype PostResult =
    | Published(id: PostId, contentType: string, outcome: Outcome)
    | Errored(id: PostId, contentType: string, error: string)

  /** One post settled, or the run aborted by a failure write that threw. */
  datatype Step = Step(store: Store, result: PostResult) | Abort(message: string)

  /** Settles one dispatched post. The outcome write counts the post
      whether or not the store applied it; when it throws, a failure write
      records the thrown message, and when that throws too the run ends. */
  function Settle(s: Store, p: Post, o: Outcome, now: Time, outcomeWrite: Write, failureWrite: Write): (r: Step)
    ensures r.Abort? <==> outcomeWrite.Thrown? && failureWrite.Thrown?
    ensures r.Abort? ==> r.message == failureWrite.message
    ensures r.Step? ==> r.store.nextId == s.nextId && r.store.posts.Keys == s.posts.Keys
    ensures r.Step? ==> forall id :: id in s.posts && id != p.id ==> r.store.posts[id] == s.posts[id]
    ensures r.Step? ==> r.result.id == p.id && r.result.contentType == p.contentType
    ensures r.Step? ==> (r.result.Published? <==> !outcomeWrite.Thrown?)
    ensures r.Step? && r.result.Published? ==> r.result.outcome == o
    ensures r.Step? && r.result.Errored? ==> r.result.error == outcomeWrite.message
    ensures r.Step? && p.id in s.posts && outcomeWrite.Applied? ==>
      r.store.posts[p.id] == Record(s.posts[p.id], Classify(o), now)
    ensures r.Step? && p.id in s.posts && outcomeWrite.Thrown? && failureWrite.Applied? ==>
      r.store.posts[p.id] == MarkFailed(s.posts[p.id], outcomeWrite.message)
    ensures r.Step? && (outcomeWrite.Ignored? || (outcomeWrite.Thrown? && failureWrite.Ignored?)) ==> r.store == s
  {
    match outcomeWrite
    case Applied =>
      var next := if p.id in s.posts then Replace(s, p.id, Record(s.posts[p.id], Classify(o), now)) else s;
      Step(next, Published(p.id, p.contentType, o))
    case Ignored => Step(s, Published(p.id, p.contentType, o))
    case Thrown(m) =>
      match failureWrite
      case Applied =>
        var next := if p.id in s.posts then Replace(s, p.id, MarkFailed(s.posts[p.id], m)) else s;
        Step(next, Errored(p.id, p.contentType, m))
      case Ignored => Step(s, Errored(p.id, p.contentType, m))
      case Thrown(m2) => Abort(m2)
  }

  /** A settled post whose write reached the store is no longer due, so
      the next run does not publish it again. */
  lemma SettledIsNotDue(s: Store, p: Post, o: Outcome, now: Time, outcomeWrite: Write, failureWrite: Write)
    requires p.id in s.posts
    requires outcomeWrite.Applied? || (outcomeWrite.Thrown? && failureWrite.Applied?)
    ensures var r := Settle(s, p, o, now, outcomeWrite, failureWrite);
      r.Step? && !IsDue(r.store.posts[p.id], now)
  {
  }

  /** How many results count as published (`postedCount`). */
  function CountPublished(results: seq<PostResult>): (n: nat)
    ensures n <= |results|
    ensures n == |results| <==> forall j :: 0 <= j < |results| ==> results[j].Published?
  {
    if results == [] then 0
    else CountPublished(results[..|results| - 1]) + (if results[|results| - 1].Published? then 1 else 0)
  }

  /** The positions of the results whose publish call returned. */
  ghost function PublishedIndices(results: seq<PostResult>): set<int>
  {
    set j | 0 <= j < |results| && results[j].Published?
  }

  /** The posted count is the number of results whose publish call returned. */
  lemma {:induction false} CountPublishedIsIndexCount(results: seq<PostResult>)
    ensures CountPublished(results) == |PublishedIndices(results)|
  {
    if results != [] {
      var init := results[..|results| - 1];
      CountPublishedIsIndexCount(init);
      assert PublishedIndices(results) ==
        PublishedIndices(init) + (if results[|results| - 1].Published? then {|results| - 1} else {});
    }
  }

  /** The summary line of each result. A result is listed as failed only
      when its error message is non-empty, since the summary tests the
      message's truthiness: an empty thrown message reads as placed. */
  function Lines(results: seq<PostResult>): (lines: seq<SummaryLine>)
    ensures |lines| == |results|
    ensures forall j :: 0 <= j < |results| ==>
      (lines[j].NotPlaced? <==> results[j].Errored? && results[j].error != "")
    ensures forall j :: 0 <= j < |results| ==>
      (lines[j].NotPlaced? ==> lines[j] == NotPlaced(results[j].contentType, results[j].error)) &&
      (lines[j].Placed? ==> lines[j] == Placed(results[j].contentType))
  {
    seq(|results|, j requires 0 <= j < |results| =>
      match results[j]
      case Published(_, t, _) => Placed(t)
      case Errored(_, t, e) => if e == "" then Placed(t) else NotPlaced(t, e))
  }

  const PostingOff := "Posting is uitgeschakeld"
  const NothingScheduled := "Geen posts gepland"

  /** The response of a run. */
  datatype Reply =
    | Unauthorized
    | Idle(message: string)
    | Done(posted: nat, results: seq<PostResult>)
    | Crashed(message: string)

  /** The store's behaviour during a run: the configuration read, the due
      query (`Some` when it throws), and the two writes of post `j`. */
  datatype Db = Db(
    configRead: Result<Option<Config>>,
    dueQueryFault: Option<string>,
    outcomeWrite: nat -> Write,
    failureWrite: nat -> Write)

  /** A run: its response, the store afterwards, the dispatch outcome of
      each post handled, and the operator notice. */
  datatype Run = Run(reply: Reply, store: Store, sent: seq<Outcome>, notice: Option<Notice>)

  /** None of the first `n` posts had both its outcome write and its
      failure write throw, so none of them ends the run. */
  predicate NoDoubleThrow(db: Db, n: nat)
  {
    forall j :: 0 <= j < n ==> !(db.outcomeWrite(j).Thrown? && db.failureWrite(j).Thrown?)
  }

  lemma NoDoubleThrowStep(db: Db, i: nat)
    requires NoDoubleThrow(db, i)
    requires !(db.outcomeWrite(i).Thrown? && db.failureWrite(i).Thrown?)
    ensures NoDoubleThrow(db, i + 1)
  {
  }

  lemma DoubleThrowStops(db: Db, i: nat, n: nat)
    requires i < n
    requires db.outcomeWrite(i).Thrown? && db.failureWrite(i).Thrown?
    ensures !NoDoubleThrow(db, n)
  {
  }

  /** The run gets as far as the due query: the secret matches, the
      configuration reads, posting is on and the query answers. */
  predicate ReachesDueQuery(header: Option<string>, cronSecret: Option<string>, db: Db)
  {
    && Authorized(header, cronSecret) && db.configRead.Ok?
    && ConfigOrEmpty(db.configRead.value).postingEnabled && db.dueQueryFault.None?
  }

  /** Post `j` of the batch is dispatched as the cron does it. */
  ghost predicate SentAsStored(config: Config, batch: seq<Post>, sent: seq<Outcome>, graph: nat -> Graph)
  {
    && |sent| <= |batch|
    && forall j :: 0 <= j < |sent| ==>
         sent[j] == PostToSocial(config, FullText(batch[j]), ImageOf(batch[j]), Some(batch[j].platform), graph(j))
  }

  /** Row `before` became `after` as the writes for result `r` dictate:
      the verdict when the outcome write lands, the failure mark when it
      throws and the failure write lands, and no change otherwise. */
  ghost predicate RowSettled(before: Post, after: Post, r: PostResult, now: Time, outcomeWrite: Write, failureWrite: Write)
  {
    && (outcomeWrite.Applied? ==> r.Published? && after == Record(before, Classify(r.outcome), now))
    && (outcomeWrite.Thrown? && failureWrite.Applied? ==> after == MarkFailed(before, outcomeWrite.message))
    && (outcomeWrite.Ignored? || (outcomeWrite.Thrown? && failureWrite.Ignored?) ==> after == before)
  }

  /** Each published result carries the outcome dispatched for its post. */
  ghost predicate OutcomesMatch(results: seq<PostResult>, sent: seq<Outcome>)
  {
    && |results| == |sent|
    && forall j :: 0 <= j < |results| ==> results[j].Published? ==> results[j].outcome == sent[j]
  }

  lemma OutcomesStep(results: seq<PostResult>, sent: seq<Outcome>, r: PostResult, o: Outcome)
    requires OutcomesMatch(results, sent)
    requires r.Published? ==> r.outcome == o
    ensures OutcomesMatch(results + [r], sent + [o])
  {
  }

  lemma SentStep(config: Config, batch: seq<Post>, sent: seq<Outcome>, graph: nat -> Graph)
    requires SentAsStored(config, batch, sent, graph)
    requires |sent| < |batch|
    ensures var p := batch[|sent|];
      SentAsStored(config, batch, sent + [PostToSocial(config, FullText(p), ImageOf(p), Some(p.platform), graph(|sent|))], graph)
  {
    var p := batch[|sent|];
    var next := sent + [PostToSocial(config, FullText(p), ImageOf(p), Some(p.platform), graph(|sent|))];
    forall j | 0 <= j < |next|
      ensures next[j] == PostToSocial(config, FullText(batch[j]), ImageOf(batch[j]), Some(batch[j].platform), graph(j))
    {
      if j < |sent| {
        assert next[j] == sent[j];
      }
    }
  }

  /** A row whose outcome or failure write landed is no longer due. */
  lemma RowSettledNotDue(before: Post, after: Post, r: PostResult, now: Time, outcomeWrite: Write, failureWrite: Write)
    requires RowSettled(before, after, r, now, outcomeWrite, failureWrite)
    requires outcomeWrite.Applied? || (outcomeWrite.Thrown? && failureWrite.Applied?)
    ensures !IsDue(after, now)
    ensures after.status == Posted || after.status == Failed
  {
    if outcomeWrite.Applied? {
      assert after.status == Classify(r.outcome).status;
    }
  }

  /** The loop state: after `i` posts, results line up with the batch and
      only the rows of handled posts have changed. */
  ghost predicate Progress(s: Store, cur: Store, batch: seq<Post>, i: nat, results: seq<PostResult>,
                           now: Time, outcomeWrite: nat -> Write, failureWrite: nat -> Write)
  {
    && i <= |batch|
    && |results| == i
    && Valid(cur) && cur.nextId == s.nextId && cur.posts.Keys == s.posts.Keys
    && (forall j :: 0 <= j < |batch| ==> batch[j].id in s.posts)
    && (forall j :: 0 <= j < i ==> results[j].id == batch[j].id && results[j].contentType == batch[j].contentType)
    && (forall j :: 0 <= j < i ==> (results[j].Published? <==> !outcomeWrite(j).Thrown?))
    && (forall id :: id in s.posts && (forall j :: 0 <= j < i ==> batch[j].id != id) ==> cur.posts[id] == s.posts[id])
  }

  /** The first `i` rows of the batch are settled as their results and
      writes dictate. */
  ghost predicate Settled(cur: Store, batch: seq<Post>, i: nat, results: seq<PostResult>,
                          now: Time, outcomeWrite: nat -> Write, failureWrite: nat -> Write)
  {
    && i <= |batch| && |results| == i
    && (forall j :: 0 <= j < i ==> batch[j].id in cur.posts)
    && (forall j :: 0 <= j < i ==>
          RowSettled(batch[j], cur.posts[batch[j].id], results[j], now, outcomeWrite(j), failureWrite(j)))
  }

  /** Settling row `i`, still as stored and distinct from the rows before
      it, settles one more row and leaves the earlier ones settled. */
  lemma SettledStep(cur: Store, batch: seq<Post>, i: nat, results: seq<PostResult>,
                    now: Time, outcomeWrite: nat -> Write, failureWrite: nat -> Write, o: Outcome)
    requires Settled(cur, batch, i, results, now, outcomeWrite, failureWrite)
    requires i < |batch| && batch[i].id in cur.posts && cur.posts[batch[i].id] == batch[i]
    requires forall j :: 0 <= j < i ==> batch[j].id != batch[i].id
    requires Settle(cur, batch[i], o, now, outcomeWrite(i), failureWrite(i)).Step?
    ensures var r := Settle(cur, batch[i], o, now, outcomeWrite(i), failureWrite(i));
      Settled(r.store, batch, i + 1, results + [r.result], now, outcomeWrite, failureWrite)
  {
    var r := Settle(cur, batch[i], o, now, outcomeWrite(i), failureWrite(i));
    var next := results + [r.result];
    forall j | 0 <= j < i + 1
      ensures batch[j].id in r.store.posts
      ensures RowSettled(batch[j], r.store.posts[batch[j].id], next[j], now, outcomeWrite(j), failureWrite(j))
    {
      if j < i {
        assert next[j] == results[j];
        assert r.store.posts[batch[j].id] == cur.posts[batch[j].id];
      }
    }
  }

  /** Batch rows have distinct ids. */
  lemma BatchIdsDistinct(s: Store, now: Time, batch: seq<Post>)
    requires IsDueBatch(s, now, batch)
    ensures forall j, k :: 0 <= j < k < |batch| ==> batch[j].id != batch[k].id
  {
    forall j, k | 0 <= j < k < |batch|
      ensures batch[j].id != batch[k].id
    {
      assert Precedes(batch[j], batch[k]);
      assert batch[j] == s.posts[batch[j].id];
      assert batch[k] == s.posts[batch[k].id];
    }
  }

  /** Settling post `i` extends the loop state. */
  lemma SettleStep(s: Store, cur: Store, batch: seq<Post>, i: nat, results: seq<PostResult>,
                   now: Time, outcomeWrite: nat -> Write, failureWrite: nat -> Write, o: Outcome)
    requires Valid(s) && IsDueBatch(s, now, batch)
    requires Progress(s, cur, batch, i, results, now, outcomeWrite, failureWrite)
    requires i < |batch|
    requires Settle(cur, batch[i], o, now, outcomeWrite(i), failureWrite(i)).Step?
    ensures batch[i].id in cur.posts && cur.posts[batch[i].id] == batch[i]
    ensures forall j :: 0 <= j < i ==> batch[j].id != batch[i].id
    ensures var r := Settle(cur, batch[i], o, now, outcomeWrite(i), failureWrite(i));
      Progress(s, r.store, batch, i + 1, results + [r.result], now, outcomeWrite, failureWrite)
  {
    var r := Settle(cur, batch[i], o, now, outcomeWrite(i), failureWrite(i));
    BatchIdsDistinct(s, now, batch);
    var p := batch[i];
    assert p.id in cur.posts;
    forall id | id in r.store.posts
      ensures id < r.store.nextId && r.store.posts[id].id == id
    {
      if id != p.id {
        assert r.store.posts[id] == cur.posts[id];
      }
    }
    if outcomeWrite(i).Applied? || (outcomeWrite(i).Thrown? && failureWrite(i).Applied?) {
      SettledIsNotDue(cur, p, o, now, outcomeWrite(i), failureWrite(i));
    }
    var next := results + [r.result];
    forall j | 0 <= j < i + 1
      ensures next[j].id == batch[j].id && next[j].contentType == batch[j].contentType
      ensures next[j].Published? <==> !outcomeWrite(j).Thrown?
    {
    }
  }

  /** Dispatches and settles the posts of the batch in order, stopping at an abort. */
  method SettleAll(s: Store, batch: seq<Post>, config: Config, now: Time, db: Db, graph: nat -> Graph)
    returns (reply: Reply, cur: Store, sent: seq<Outcome>)
    requires Valid(s)
    requires IsDueBatch(s, now, batch)
    ensures reply.Done? || reply.Crashed?
    ensures NoDoubleThrow(db, |batch|) ==> reply.Done?
    ensures reply.Done? ==> NoDoubleThrow(db, |batch|)
    ensures SentAsStored(config, batch, sent, graph)
    ensures Valid(cur) && cur.nextId == s.nextId && cur.posts.Keys == s.posts.Keys
    ensures forall id :: id in s.posts && (forall j :: 0 <= j < |batch| ==> batch[j].id != id) ==> cur.posts[id] == s.posts[id]
    ensures reply.Done? ==> |sent| == |batch| && reply.posted == CountPublished(reply.results)
    ensures reply.Done? ==> Progress(s, cur, batch, |batch|, reply.results, now, db.outcomeWrite, db.failureWrite)
    ensures reply.Done? ==> Settled(cur, batch, |batch|, reply.results, now, db.outcomeWrite, db.failureWrite)
    ensures reply.Done? ==> OutcomesMatch(reply.results, sent)
    ensures reply.Crashed? ==> exists j :: 0 <= j < |batch| && db.outcomeWrite(j).Thrown? && db.failureWrite(j) == Thrown(reply.message)
  {
    var results: seq<PostResult> := [];
    cur := s;
    sent := [];
    var i := 0;
    while i < |batch|
      invariant |sent| == i
      invariant SentAsStored(config, batch, sent, graph)
      invariant Progress(s, cur, batch, i, results, now, db.outcomeWrite, db.failureWrite)
      invariant Settled(cur, batch, i, results, now, db.outcomeWrite, db.failureWrite)
      invariant OutcomesMatch(results, sent)
      invariant NoDoubleThrow(db, i)
    {
      var p := batch[i];
      var o := PostToSocial(config, FullText(p), ImageOf(p), Some(p.platform), graph(i));
      var step := Settle(cur, p, o, now, db.outcomeWrite(i), db.failureWrite(i));
      SentStep(config, batch, sent, graph);
      if step.Abort? {
        assert db.outcomeWrite(i).Thrown? && db.failureWrite(i) == Thrown(step.message);
        DoubleThrowStops(db, i, |batch|);
        return Crashed(step.message), cur, sent + [o];
      }
      SettleStep(s, cur, batch, i, results, now, db.outcomeWrite, db.failureWrite, o);
      SettledStep(cur, batch, i, results, now, db.outcomeWrite, db.failureWrite, o);
      OutcomesStep(results, sent, step.result, o);
      NoDoubleThrowStep(db, i);
      sent := sent + [o];
      cur := step.store;
      results := results + [step.result];
      i := i + 1;
    }
    reply := Done(CountPublished(results), results);
  }

  /** The publishing cron. `graph(j)` answers the Graph calls for post `j`. */
  method Publish(header: Option<string>, cronSecret: Option<string>, db: Db, s: Store, now: Time, graph: nat -> Graph)
    returns (run: Run, batch: seq<Post>)
    requires Valid(s)
    ensures run.reply.Unauthorized? <==> !Authorized(header, cronSecret)
    ensures run.reply == Idle(PostingOff) <==>
      Authorized(header, cronSecret) && db.configRead.Ok? && !ConfigOrEmpty(db.configRead.value).postingEnabled
    ensures run.reply.Unauthorized? || run.reply.Idle? ==> run.store == s && run.sent == [] && run.notice.None?
    ensures run.reply == Idle(NothingScheduled) ==> DueIds(s, now) == {}
    ensures Valid(run.store) && run.store.nextId == s.nextId && run.store.posts.Keys == s.posts.Keys
    ensures forall id :: id in s.posts && (forall j :: 0 <= j < |batch| ==> batch[j].id != id) ==> run.store.posts[id] == s.posts[id]
    ensures run.reply.Done? || run.sent != [] ==> db.configRead.Ok? && IsDueBatch(s, now, batch)
    ensures run.reply.Done? || run.sent != [] ==> db.configRead.Ok? && SentAsStored(ConfigOrEmpty(db.configRead.value), batch, run.sent, graph)
    ensures run.reply.Done? ==>
      && 0 < |batch| && |run.reply.results| == |batch| == |run.sent|
      && run.reply.posted == CountPublished(run.reply.results)
      && (forall j :: 0 <= j < |batch| ==> run.reply.results[j].id == batch[j].id)
      && (forall j :: 0 <= j < |batch| ==> run.reply.results[j].Published? ==> run.reply.results[j].outcome == run.sent[j])
      && (forall j :: 0 <= j < |batch| ==>
            RowSettled(batch[j], run.store.posts[batch[j].id], run.reply.results[j], now, db.outcomeWrite(j), db.failureWrite(j)))
      && (forall j :: 0 <= j < |batch| && (db.outcomeWrite(j).Applied? || (db.outcomeWrite(j).Thrown? && db.failureWrite(j).Applied?)) ==>
            !IsDue(run.store.posts[batch[j].id], now))
    ensures run.reply.Done? ==> run.notice == Some(PublishReport(run.reply.posted, |batch|, Lines(run.reply.results)))
    ensures run.reply.Crashed? ==> run.notice == Some(ErrorReport(run.reply.message))
    ensures run.reply == Idle(NothingScheduled) <==> ReachesDueQuery(header, cronSecret, db) && DueIds(s, now) == {}
    ensures ReachesDueQuery(header, cronSecret, db) ==> IsDueBatch(s, now, batch)
    ensures run.reply.Done? <==> ReachesDueQuery(header, cronSecret, db) && DueIds(s, now) != {} && NoDoubleThrow(db, |batch|)
    ensures run.reply.Crashed? ==> db.configRead.Err? || db.dueQueryFault.Some? || !NoDoubleThrow(db, |batch|)
  {
    batch := [];
    if !Authorized(header, cronSecret) {
      return Run(Unauthorized, s, [], None), batch;
    }
    if db.configRead.Err? {
      return Run(Crashed(db.configRead.error), s, [], Some(ErrorReport(db.configRead.error))), batch;
    }
    var config := ConfigOrEmpty(db.configRead.value);
    if !config.postingEnabled {
      return Run(Idle(PostingOff), s, [], None), batch;
    }
    if db.dueQueryFault.Some? {
      var m := db.dueQueryFault.value;
      return Run(Crashed(m), s, [], Some(ErrorReport(m))), batch;
    }
    batch := SelectDue(s, now);
    if |batch| == 0 {
      return Run(Idle(NothingScheduled), s, [], None), batch;
    }
    var reply, cur, sent := SettleAll(s, batch, config, now, db, graph);
    var notice := if reply.Done? then PublishReport(reply.posted, |batch|, Lines(reply.results)) else ErrorReport(reply.message);
    run := Run(reply, cur, sent, Some(notice));
    if reply.Done? {
      forall j | 0 <= j < |batch| && (db.outcomeWrite(j).Applied? || (db.outcomeWrite(j).Thrown? && db.failureWrite(j).Applied?))
        ensures !IsDue(cur.posts[batch[j].id], now)
      {
        RowSettledNotDue(batch[j], cur.posts[batch[j].id], reply.results[j], now, db.outcomeWrite(j), db.failureWrite(j));
      }
    }
  }
}

=== FILE: domain.dfy ===
/** The records the autopilot works on: posts, their status and target
    platform, the singleton social configuration, and time. */
module Domain {
  import opened Wrappers

  type PostId = nat

  /** Milliseconds since the epoch. Local-time offsets are not modelled, so
      day number `d` covers `[d * MsPerDay, (d + 1) * MsPerDay)`. */
  type Time = int

  const MsPerHour: int := 3_600_000
  const MsPerDay: int := 24 * MsPerHour

  /** The hour of day at which generated posts are scheduled. */
  const PublishHour: int := 9

  /** 09:00:00.000 on day number `day` (`setHours(9, 0, 0, 0)`). */
  function NineAm(day: int): (t: Time)
    ensures day * MsPerDay <= t < (day + 1) * MsPerDay
  {
    day * MsPerDay + PublishHour * MsPerHour
  }

  /** Later days have later 09:00 instants. */
  lemma NineAmOrder(a: int, b: int)
    ensures a < b <==> NineAm(a) < NineAm(b)
  {
    if a < b {
      assert (b - a) * MsPerDay >= MsPerDay;
      assert NineAm(b) - NineAm(a) == (b - a) * MsPerDay;
    } else {
      assert (a - b) * MsPerDay >= 0;
      assert NineAm(a) - NineAm(b) == (a - b) * MsPerDay;
    }
  }

  /** An instant is 09:00 of at most one day `today + k`. */
  lemma SameNineAmSameDay(today: int, k: int, i: int, t: Time)
    requires t == NineAm(today + k) && t == NineAm(today + i)
    ensures k == i
  {
    NineAmOrder(today + k, today + i);
    NineAmOrder(today + i, today + k);
  }

  /** The post lifecycle. The column is a free string in the store, so a
      value outside the four the code writes is `OtherStatus`. */
  datatype Status = Queued | Approved | Posted | Failed | OtherStatus

  /** Where a post goes; any other stored value is `OtherPlatform`. */
  datatype Platform = Facebook | Instagram | Both | OtherPlatform

  /** What the content generator produces for one post. */
  datatype Draft = Draft(
    contentType: string,
    textContent: string,
    hashtags: seq<string>,
    imagePrompt: Option<string>,
    hook: string)

  /** A row about to be inserted: a draft plus its scheduling fields. */
  datatype NewPost = NewPost(draft: Draft, platform: Platform, status: Status, scheduledFor: Time)

  /** A row of the posts table. */
  datatype Post = Post(
    id: PostId,
    contentType: string,
    platform: Platform,
    textContent: string,
    hashtags: seq<string>,
    imagePrompt: Option<string>,
    imageUrl: Option<string>,
    hook: string,
    status: Status,
    scheduledFor: Option<Time>,
    postedAt: Option<Time>,
    metaPostId: Option<string>,
    errorMessage: Option<string>,
    createdAt: Time)

  /** The `default` row of the social configuration table. */
  datatype Config = Config(
    facebookPageId: Option<string>,
    facebookAccessToken: Option<string>,
    instagramAccountId: Option<string>,
    autoApprove: bool,
    postingEnabled: bool,
    updatedAt: Option<Time>)

  /** `{}`: what a run uses when the configuration row is missing. */
  const EmptyConfig := Config(None, None, None, false, false, None)

  /** `rows?.[0] || {}`. */
  function ConfigOrEmpty(row: Option<Config>): Config
  {
    row.GetOr(EmptyConfig)
  }

  /** The status new posts are inserted with: `auto_approve ? 'approved' : 'queued'`. */
  function InsertStatus(config: Config): (s: Status)
    ensures s == Approved || s == Queued
    ensures s == Approved <==> config.autoApprove
  {
    if config.autoApprove then Approved else Queued
  }

  /** One line of a run summary sent to the operator channel. */
  datatype SummaryLine =
    | Generated(number: nat, contentType: string, preview: string)
    | Placed(contentType: string)
    | NotPlaced(contentType: string, error: string)

  /** The message a run leaves for the operator. */
  datatype Notice =
    | GenerationReport(count: nat, autoApproved: bool, lines: seq<SummaryLine>)
    | PublishReport(posted: nat, total: nat, lines: seq<SummaryLine>)
    | ErrorReport(message: string)
}

=== FILE: js.dfy ===
/** The JavaScript value semantics the autopilot's decisions depend on:
    truthiness, `||` on optional strings, `Array.prototype.join`,
    `String.prototype.replace` with a string pattern, `substring(0, n)` and
    `split('\n')[0]`. */
module Js {
  import opened Wrappers

  /** A field of a JSON request body: absent (`undefined`), `null`, or a value. */
  datatype Field<+T> = Undefined | Null | Value(value: T)

  /** Truthiness of an optional string: present and not the empty string. */
  predicate Truthy(s: Option<string>)
  {
    s.Some? && s.value != ""
  }

  /** `a || b` on optional strings. */
  function Or(a: Option<string>, b: Option<string>): (r: Option<string>)
    ensures Truthy(r) <==> Truthy(a) || Truthy(b)
    ensures Truthy(a) ==> r == a
    ensures !Truthy(a) ==> r == b
  {
    if Truthy(a) then a else b
  }

  predicate StartsWith(s: string, prefix: string)
  {
    |prefix| <= |s| && s[..|prefix|] == prefix
  }

  /** `pat` occurs in `s` starting at position `k`. */
  predicate OccursAt(s: string, pat: string, k: int)
  {
    0 <= k && k + |pat| <= |s| && s[k..k + |pat|] == pat
  }

  /** `sub` occurs somewhere in `s` as a contiguous run. */
  ghost predicate Occurs(sub: string, s: string)
  {
    exists k :: OccursAt(s, sub, k)
  }

  /** `xs.join(sep)`. */
  function Join(xs: seq<string>, sep: string): string
  {
    if |xs| == 0 then ""
    else if |xs| == 1 then xs[0]
    else xs[0] + sep + Join(xs[1..], sep)
  }

  /** Every joined element can be found in the joined string. */
  lemma {:induction false} JoinContains(xs: seq<string>, sep: string, i: nat)
    requires i < |xs|
    ensures Occurs(xs[i], Join(xs, sep))
  {
    var j := Join(xs, sep);
    if i == 0 {
      assert OccursAt(j, xs[0], 0);
    } else {
      JoinContains(xs[1..], sep, i - 1);
      var rest := Join(xs[1..], sep);
      var k :| OccursAt(rest, xs[1..][i - 1], k);
      var off := |xs[0]| + |sep|;
      assert j == xs[0] + sep + rest;
      assert j[off + k..off + k + |xs[i]|] == rest[k..k + |xs[i]|];
      assert OccursAt(j, xs[i], off + k);
    }
  }

  /** The first position at or after `from` where `pat` occurs in `s`
      (`s.indexOf(pat, from)`, with `None` for -1). */
  function IndexOf(s: string, pat: string, from: nat): (r: Option<nat>)
    decreases |s| - from
    ensures r.Some? ==> from <= r.value && OccursAt(s, pat, r.value)
    ensures r.Some? ==> forall k :: from <= k < r.value ==> !OccursAt(s, pat, k)
    ensures r.None? ==> forall k :: from <= k ==> !OccursAt(s, pat, k)
  {
    if from + |pat| > |s| then None
    else if s[from..from + |pat|] == pat then Some(from)
    else IndexOf(s, pat, from + 1)
  }

  /** `s.replace(pat, rep)` with a string pattern: only the first occurrence
      is replaced, wherever it is. */
  function ReplaceFirst(s: string, pat: string, rep: string): (r: string)
    ensures StartsWith(s, pat) ==> r == rep + s[|pat|..]
    ensures (forall k :: !OccursAt(s, pat, k)) ==> r == s
    ensures (exists k :: OccursAt(s, pat, k)) ==> exists i ::
      && OccursAt(s, pat, i) && (forall k :: 0 <= k < i ==> !OccursAt(s, pat, k))
      && r == s[..i] + rep + s[i + |pat|..]
  {
    match IndexOf(s, pat, 0)
    case None => s
    case Some(i) =>
      assert OccursAt(s, pat, i);
      s[..i] + rep + s[i + |pat|..]
  }

  /** `s.substring(0, n)`. */
  function Prefix(s: string, n: nat): (r: string)
    ensures r <= s
    ensures |r| == if |s| <= n then |s| else n
  {
    if |s| <= n then s else s[..n]
  }

  /** `s.split('\n')[0]`: the text before the first line break. */
  function FirstLine(s: string): (r: string)
    ensures r <= s
    ensures '\n' !in r
    ensures r == s || s[|r|] == '\n'
  {
    if |s| == 0 || s[0] == '\n' then ""
    else [s[0]] + FirstLine(s[1..])
  }
}

=== FILE: post_store.dfy ===
/** The posts table as the autopilot uses it: bulk inserts that assign
    fresh ids, the due query of the publishing run, and single-row updates. */
module PostStore {
  import opened Wrappers
  import opened Domain

  /** The table: rows by id, and the id the next insert will assign. */
  datatype Store = Store(posts: map<PostId, Post>, nextId: PostId)

  /** Every row is filed under its own id, below the next fresh id. */
  ghost predicate Valid(s: Store)
  {
    forall id :: id in s.posts ==> id < s.nextId && s.posts[id].id == id
  }

  /** The stored form of a new row: the draft's columns, the scheduling
      fields, no image, not yet published. */
  function MakePost(id: PostId, row: NewPost, now: Time): Post
  {
    Post(id, row.draft.contentType, row.platform, row.draft.textContent, row.draft.hashtags,
      row.draft.imagePrompt, None, row.draft.hook, row.status, Some(row.scheduledFor),
      None, None, None, now)
  }

  /** The columns of a stored row that an insert supplies. */
  function Columns(p: Post): NewPost
  {
    NewPost(Draft(p.contentType, p.textContent, p.hashtags, p.imagePrompt, p.hook),
      p.platform, p.status, match p.scheduledFor case Some(t) => t case None => 0)
  }

  /** Reading back the inserted columns gives what was inserted. */
  lemma ColumnsOfMakePost(id: PostId, row: NewPost, now: Time)
    ensures Columns(MakePost(id, row, now)) == row
    ensures MakePost(id, row, now).id == id
  {
  }

  /** `{ ...p, status }`: every row with the status replaced. */
  function WithStatus(rows: seq<NewPost>, status: Status): (r: seq<NewPost>)
    ensures |r| == |rows|
    ensures forall i :: 0 <= i < |r| ==> r[i].status == status && r[i] == rows[i].(status := status)
  {
    seq(|rows|, i requires 0 <= i < |rows| => rows[i].(status := status))
  }

  /** The store after an insert, and the inserted rows as the store
      returns them (`return=representation`), in request order. */
  datatype Inserted = Inserted(store: Store, rows: seq<Post>)

  /** A bulk insert: row `i` receives id `nextId + i`, earlier rows are
      kept, and the inserted rows read back as the rows sent. */
  function Insert(s: Store, rows: seq<NewPost>, now: Time): (r: Inserted)
    ensures r.store.nextId == s.nextId + |rows|
    ensures |r.rows| == |rows|
    ensures forall i :: 0 <= i < |rows| ==> r.rows[i].id == s.nextId + i && Columns(r.rows[i]) == rows[i]
    ensures forall i :: 0 <= i < |rows| ==>
      r.rows[i].createdAt == now && r.rows[i].imageUrl.None? &&
      r.rows[i].postedAt.None? && r.rows[i].metaPostId.None? && r.rows[i].errorMessage.None?
    ensures forall i :: 0 <= i < |rows| ==> r.rows[i].id in r.store.posts && r.store.posts[r.rows[i].id] == r.rows[i]
    ensures forall id :: id in r.store.posts <==> id in s.posts || s.nextId <= id < s.nextId + |rows|
    ensures forall id :: id in s.posts && id < s.nextId ==> r.store.posts[id] == s.posts[id]
    decreases |rows|
  {
    if rows == [] then Inserted(s, [])
    else
      var p := MakePost(s.nextId, rows[0], now);
      var rest := Insert(Store(s.posts[s.nextId := p], s.nextId + 1), rows[1..], now);
      assert forall i :: 1 <= i < |rows| ==> rows[1..][i - 1] == rows[i];
      Inserted(rest.store, [p] + rest.rows)
  }

  /** An insert keeps the store valid and leaves every earlier row as it was. */
  lemma InsertKeepsValid(s: Store, rows: seq<NewPost>, now: Time)
    requires Valid(s)
    ensures var r := Insert(s, rows, now);
      && Valid(r.store)
      && (forall id :: id in s.posts ==> id in r.store.posts && r.store.posts[id] == s.posts[id])
      && (forall i :: 0 <= i < |rows| ==> r.rows[i].id !in s.posts)
  {
    var r := Insert(s, rows, now);
    forall id | id in r.store.posts
      ensures id < r.store.nextId && r.store.posts[id].id == id
    {
      if id !in s.posts {
        assert r.rows[id - s.nextId].id == id;
      }
    }
  }

  /** Rows inserted with one status all carry that status. */
  lemma InsertedWithStatus(s: Store, rows: seq<NewPost>, status: Status, now: Time)
    requires Valid(s)
    ensures var r := Insert(s, WithStatus(rows, status), now).store;
      forall id :: id in r.posts && id !in s.posts ==> r.posts[id].status == status
  {
    var sent := WithStatus(rows, status);
    var r := Insert(s, sent, now);
    forall id | id in r.store.posts && id !in s.posts
      ensures r.store.posts[id].status == status
    {
      var i := id - s.nextId;
      assert r.rows[i].id == id;
      assert Columns(r.rows[i]) == sent[i];
    }
  }

  /** The store's answer to an insert request. */
  datatype InsertReply = Accepted | Rejected(body: string) | Unreachable(message: string)

  function InsertFailed(body: string): string
  {
    "DB insert failed: " + body
  }

  /** An insert whose response is checked: a rejection throws with the
      response text, a request that does not complete throws its own
      message, and in both cases nothing is stored. */
  function InsertChecked(s: Store, rows: seq<NewPost>, now: Time, reply: InsertReply): (r: Result<Inserted>)
    ensures r.Ok? <==> reply.Accepted?
    ensures reply.Rejected? ==> r == Err(InsertFailed(reply.body))
    ensures reply.Unreachable? ==> r == Err(reply.message)
  {
    match reply
    case Accepted => Ok(Insert(s, rows, now))
    case Rejected(body) => Err(InsertFailed(body))
    case Unreachable(m) => Err(m)
  }

  /** What happens to a write whose response the code never inspects: it
      is applied, it is refused by the store without anyone noticing, or the
      request throws. */
  datatype Write = Applied | Ignored | Thrown(message: string)

  /** Replaces the row filed under `id`; a missing id matches no row. */
  function Replace(s: Store, id: PostId, p: Post): (r: Store)
    ensures r.nextId == s.nextId && r.posts.Keys == s.posts.Keys
    ensures id in s.posts ==> r.posts[id] == p
    ensures forall other :: other in s.posts && other != id ==> r.posts[other] == s.posts[other]
  {
    if id in s.posts then s.(posts := s.posts[id := p]) else s
  }

  /** Deletes the row filed under `id`, if any. */
  function Remove(s: Store, id: PostId): (r: Store)
    ensures r.nextId == s.nextId
    ensures r.posts.Keys == s.posts.Keys - {id}
    ensures forall other :: other in r.posts ==> r.posts[other] == s.posts[other]
  {
    s.(posts := map other | other in s.posts && other != id :: s.posts[other])
  }

  /** A due row: approved and scheduled at or before `now`. */
  predicate IsDue(p: Post, now: Time)
  {
    p.status == Approved && p.scheduledFor.Some? && p.scheduledFor.value <= now
  }

  /** The ids of the due rows. */
  function DueIds(s: Store, now: Time): (ids: set<PostId>)
    ensures forall id :: id in ids <==> id in s.posts && IsDue(s.posts[id], now)
  {
    set id | id in s.posts && IsDue(s.posts[id], now)
  }

  /** Rows are taken earliest schedule first (`order=scheduled_for.asc`);
      the store leaves ties unordered, and the model breaks them by id. */
  predicate Precedes(p: Post, q: Post)
  {
    var a := match p.scheduledFor case Some(t) => t case None => 0;
    var b := match q.scheduledFor case Some(t) => t case None => 0;
    a < b || (a == b && p.id < q.id)
  }

  /** The most rows one publishing run takes (`limit=5`). */
  const BatchLimit: nat := 5

  /** `batch` answers the due query: as many due rows as there are, at most
      five, in schedule order, each as stored, and no due row left out that
      comes before one taken. */
  ghost predicate IsDueBatch(s: Store, now: Time, batch: seq<Post>)
  {
    && |batch| == (if |DueIds(s, now)| < BatchLimit then |DueIds(s, now)| else BatchLimit)
    && (forall i :: 0 <= i < |batch| ==> batch[i].id in s.posts && s.posts[batch[i].id] == batch[i])
    && (forall i :: 0 <= i < |batch| ==> IsDue(batch[i], now))
    && (forall i, j :: 0 <= i < j < |batch| ==> Precedes(batch[i], batch[j]))
    && (forall id, i :: id in DueIds(s, now) && (forall j :: 0 <= j < |batch| ==> batch[j].id != id) && 0 <= i < |batch| ==>
          Precedes(batch[i], s.posts[id]))
  }

  /** The first of a non-empty set of rows in schedule order. */
  method Earliest(s: Store, ids: set<PostId>) returns (best: PostId)
    requires ids != {} && ids <= s.posts.Keys
    requires forall id :: id in ids ==> s.posts[id].id == id
    ensures best in ids
    ensures forall id :: id in ids && id != best ==> Precedes(s.posts[best], s.posts[id])
  {
    best :| best in ids;
    var rest := ids - {best};
    while rest != {}
      invariant rest <= ids && best in ids && best !in rest
      invariant forall id :: id in ids - rest && id != best ==>
        Precedes(s.posts[best], s.posts[id])
      decreases |rest|
    {
      var x :| x in rest;
      if Precedes(s.posts[x], s.posts[best]) {
        best := x;
      }
      rest := rest - {x};
    }
  }

  /** Part way through the due query: `batch` holds, in order, the due
      rows taken so far, each before every row still `pending`. */
  ghost predicate Partial(s: Store, due: set<PostId>, pending: set<PostId>, batch: seq<Post>)
  {
    && due <= s.posts.Keys
    && pending <= due
    && |batch| + |pending| == |due|
    && (forall i :: 0 <= i < |batch| ==> batch[i].id in due && s.posts[batch[i].id] == batch[i])
    && (forall i :: 0 <= i < |batch| ==> batch[i].id !in pending)
    && (forall i, j :: 0 <= i < j < |batch| ==> Precedes(batch[i], batch[j]))
    && (forall i, id :: 0 <= i < |batch| && id in pending ==> Precedes(batch[i], s.posts[id]))
    && (forall id :: id in due && id !in pending ==> exists i :: 0 <= i < |batch| && batch[i].id == id)
  }

  /** Taking the earliest pending row keeps the selection in order. */
  lemma TakeEarliest(s: Store, due: set<PostId>, pending: set<PostId>, batch: seq<Post>, id: PostId)
    requires Valid(s)
    requires Partial(s, due, pending, batch)
    requires id in pending
    requires forall other :: other in pending && other != id ==> Precedes(s.posts[id], s.posts[other])
    ensures Partial(s, due, pending - {id}, batch + [s.posts[id]])
  {
    var next := batch + [s.posts[id]];
    forall other | other in due && other !in pending - {id}
      ensures exists i :: 0 <= i < |next| && next[i].id == other
    {
      if other == id {
        assert next[|next| - 1].id == other;
      } else {
        var i :| 0 <= i < |batch| && batch[i].id == other;
        assert next[i] == batch[i];
      }
    }
  }

  /** A selection that is full, or has run out of due rows, answers the query. */
  lemma SelectionComplete(s: Store, now: Time, pending: set<PostId>, batch: seq<Post>)
    requires Partial(s, DueIds(s, now), pending, batch)
    requires |batch| <= BatchLimit && (|batch| == BatchLimit || pending == {})
    ensures IsDueBatch(s, now, batch)
  {
    var due := DueIds(s, now);
    forall id, i | id in due && (forall j :: 0 <= j < |batch| ==> batch[j].id != id) && 0 <= i < |batch|
      ensures Precedes(batch[i], s.posts[id])
    {
      assert id in pending;
    }
  }

  /** The due query of the publishing run. */
  method SelectDue(s: Store, now: Time) returns (batch: seq<Post>)
    requires Valid(s)
    ensures IsDueBatch(s, now, batch)
  {
    var due := DueIds(s, now);
    var pending := due;
    batch := [];
    while |batch| < BatchLimit && pending != {}
      invariant |batch| <= BatchLimit
      invariant Partial(s, due, pending, batch)
      decreases |pending|
    {
      var id := Earliest(s, pending);
      TakeEarliest(s, due, pending, batch, id);
      batch := batch + [s.posts[id]];
      pending := pending - {id};
    }
    SelectionComplete(s, now, pending, batch);
  }

  /** More than five due rows: the run leaves some for the next one, and
      every row it takes comes before every row it leaves. */
  lemma BacklogWaits(s: Store, now: Time, batch: seq<Post>)
    requires IsDueBatch(s, now, batch)
    requires |DueIds(s, now)| > BatchLimit
    ensures |batch| == BatchLimit
    ensures exists id :: id in DueIds(s, now) && forall j :: 0 <= j < |batch| ==> batch[j].id != id
  {
    var taken := set j | 0 <= j < |batch| :: batch[j].id;
    TakenSize(batch);
    var left := DueIds(s, now) - taken;
    assert |left| > 0;
    var id :| id in left;
  }

  /** At most as many distinct ids as rows. */
  lemma {:induction false} TakenSize(batch: seq<Post>)
    ensures |set j | 0 <= j < |batch| :: batch[j].id| <= |batch|
  {
    if batch != [] {
      var last := |batch| - 1;
      TakenSize(batch[..last]);
      var before := set j | 0 <= j < last :: batch[..last][j].id;
      assert (set j | 0 <= j < |batch| :: batch[j].id) == before + {batch[last].id};
    }
  }
}

=== FILE: social.dfy ===
/** The publisher: Facebook page posts (one Graph call) and Instagram
    business posts (container, then publish), over a Graph API oracle, and
    the dispatcher that tries each configured platform in turn. */
module Social {
  import opened Wrappers
  import opened Js
  import opened Domain

  /** The Graph API calls the publisher makes. */
  datatype Request =
    | FacebookPhoto(pageId: string, url: string, caption: string, accessToken: string)
    | FacebookFeed(pageId: string, message: string, accessToken: string)
    | InstagramContainer(accountId: string, imageUrl: string, caption: string, accessToken: string)
    | InstagramPublish(accountId: string, creationId: Option<string>, accessToken: string)
  {
    /** The token the call is authorised with. */
    function Token(): string
    {
      match this
      case FacebookPhoto(_, _, _, t) => t
      case FacebookFeed(_, _, t) => t
      case InstagramContainer(_, _, _, t) => t
      case InstagramPublish(_, _, t) => t
    }
  }

  /** A Graph response: a JSON body without `error` (its `id` and `post_id`),
      a body with `error` (its message), or a request that did not complete
      or whose body was not JSON (the thrown message). */
  datatype Reply = Data(id: Option<string>, postId: Option<string>) | GraphError(message: string) | Unreachable(message: string)

  type Graph = Request -> Reply

  /** What one platform call returns or throws, and the Graph calls it made in order. */
  datatype Attempt = Attempt(result: Result<Option<string>>, calls: seq<Request>)

  const FacebookNotConfigured := "Facebook niet geconfigureerd"
  const InstagramNotConfigured := "Instagram niet geconfigureerd"
  const InstagramNeedsImage := "Instagram vereist een afbeelding"

  /** `postToFacebook`: a photo post with the text as caption when there is
      an image, a feed message otherwise; `id`, falling back to `post_id`. */
  function PostToFacebook(pageId: Option<string>, accessToken: Option<string>, text: string, imageUrl: Option<string>, graph: Graph): (a: Attempt)
    ensures !Truthy(pageId) || !Truthy(accessToken) ==> a == Attempt(Err(FacebookNotConfigured), [])
    ensures Truthy(pageId) && Truthy(accessToken) ==> |a.calls| == 1
    ensures Truthy(pageId) && Truthy(accessToken) && Truthy(imageUrl) ==>
      a.calls[0] == FacebookPhoto(pageId.value, imageUrl.value, text, accessToken.value)
    ensures Truthy(pageId) && Truthy(accessToken) && !Truthy(imageUrl) ==>
      a.calls[0] == FacebookFeed(pageId.value, text, accessToken.value)
    ensures a.calls != [] && graph(a.calls[0]).GraphError? ==> a.result == Err("Facebook: " + graph(a.calls[0]).message)
    ensures a.calls != [] && graph(a.calls[0]).Data? ==> a.result == Ok(Or(graph(a.calls[0]).id, graph(a.calls[0]).postId))
    ensures a.calls != [] && graph(a.calls[0]).Unreachable? ==> a.result == Err(graph(a.calls[0]).message)
  {
    if !Truthy(pageId) || !Truthy(accessToken) then Attempt(Err(FacebookNotConfigured), [])
    else
      var request :=
        if Truthy(imageUrl) then FacebookPhoto(pageId.value, imageUrl.value, text, accessToken.value)
        else FacebookFeed(pageId.value, text, accessToken.value);
      var result :=
        match graph(request)
        case Data(id, postId) => Ok(Or(id, postId))
        case GraphError(m) => Err("Facebook: " + m)
        case Unreachable(m) => Err(m);
      Attempt(result, [request])
  }

  /** `postToInstagram`: nothing is sent without an account, a token and an
      image; the publish call follows only a container without error and
      names that container. */
  function PostToInstagram(accountId: Option<string>, accessToken: Option<string>, text: string, imageUrl: Option<string>, graph: Graph): (a: Attempt)
    ensures !Truthy(accountId) || !Truthy(accessToken) ==> a == Attempt(Err(InstagramNotConfigured), [])
    ensures Truthy(accountId) && Truthy(accessToken) && !Truthy(imageUrl) ==> a == Attempt(Err(InstagramNeedsImage), [])
    ensures a.calls != [] ==>
      a.calls[0] == InstagramContainer(accountId.value, imageUrl.value, text, accessToken.value)
    ensures |a.calls| <= 2
    ensures |a.calls| == 2 <==> a.calls != [] && graph(a.calls[0]).Data?
    ensures |a.calls| == 2 ==> a.calls[1] == InstagramPublish(accountId.value, graph(a.calls[0]).id, accessToken.value)
    ensures |a.calls| == 1 ==> a.result.Err?
    ensures a.result.Ok? ==> |a.calls| == 2 && graph(a.calls[1]).Data? && a.result.value == graph(a.calls[1]).id
    ensures |a.calls| == 2 && graph(a.calls[1]).Data? ==> a.result == Ok(graph(a.calls[1]).id)
    ensures a.calls != [] && graph(a.calls[0]).GraphError? ==> a.result == Err("Instagram container: " + graph(a.calls[0]).message)
    ensures a.calls != [] && graph(a.calls[0]).Unreachable? ==> a.result == Err(graph(a.calls[0]).message)
    ensures |a.calls| == 2 && graph(a.calls[1]).GraphError? ==> a.result == Err("Instagram publish: " + graph(a.calls[1]).message)
    ensures |a.calls| == 2 && graph(a.calls[1]).Unreachable? ==> a.result == Err(graph(a.calls[1]).message)
  {
    if !Truthy(accountId) || !Truthy(accessToken) then Attempt(Err(InstagramNotConfigured), [])
    else if !Truthy(imageUrl) then Attempt(Err(InstagramNeedsImage), [])
    else
      var container := InstagramContainer(accountId.value, imageUrl.value, text, accessToken.value);
      match graph(container)
      case GraphError(m) => Attempt(Err("Instagram container: " + m), [container])
      case Unreachable(m) => Attempt(Err(m), [container])
      case Data(containerId, _) =>
        var publish := InstagramPublish(accountId.value, containerId, accessToken.value);
        var result :=
          match graph(publish)
          case Data(id, _) => Ok(id)
          case GraphError(m) => Err("Instagram publish: " + m)
          case Unreachable(m) => Err(m);
        Attempt(result, [container, publish])
  }

  /** `postToSocial`'s result, plus the Graph calls made, in order. */
  datatype Outcome = Outcome(facebook: Option<string>, instagram: Option<string>, errors: seq<string>, calls: seq<Request>)

  /** Facebook is tried for `both` and `facebook` when a page id is set. */
  predicate TriesFacebook(config: Config, platform: Platform)
  {
    (platform == Both || platform == Facebook) && Truthy(config.facebookPageId)
  }

  /** Instagram is tried for `both` and `instagram` when an account id is set. */
  predicate TriesInstagram(config: Config, platform: Platform)
  {
    (platform == Both || platform == Instagram) && Truthy(config.instagramAccountId)
  }

  /** The id a tried platform contributes: its return value, or `null` when it threw. */
  function IdOf(a: Attempt): Option<string>
  {
    if a.result.Ok? then a.result.value else None
  }

  /** The error a tried platform contributes, with the platform prefix. */
  function ErrorsOf(prefix: string, a: Attempt): (es: seq<string>)
    ensures |es| <= 1
    ensures es != [] ==> StartsWith(es[0], prefix)
    ensures es == [] <==> a.result.Ok?
    ensures es != [] ==> es == [prefix + a.result.error]
  {
    if a.result.Err? then [prefix + a.result.error] else []
  }

  /** The Facebook half of a dispatch. */
  function FacebookPart(config: Config, text: string, imageUrl: Option<string>, platform: Platform, graph: Graph): Outcome
  {
    if TriesFacebook(config, platform) then
      var a := PostToFacebook(config.facebookPageId, config.facebookAccessToken, text, imageUrl, graph);
      Outcome(IdOf(a), None, ErrorsOf("Facebook: ", a), a.calls)
    else Outcome(None, None, [], [])
  }

  /** The Instagram half of a dispatch; it uses the Facebook access token. */
  function InstagramPart(config: Config, text: string, imageUrl: Option<string>, platform: Platform, graph: Graph): Outcome
  {
    if TriesInstagram(config, platform) then
      var a := PostToInstagram(config.instagramAccountId, config.facebookAccessToken, text, imageUrl, graph);
      Outcome(None, IdOf(a), ErrorsOf("Instagram: ", a), a.calls)
    else Outcome(None, None, [], [])
  }

  /** `postToSocial`: Facebook, then Instagram, each caught on its own. An
      omitted `platform` argument defaults to `both`. */
  function PostToSocial(config: Config, text: string, imageUrl: Option<string>, platform: Option<Platform>, graph: Graph): (r: Outcome)
    ensures |r.errors| <= 2
    ensures forall i :: 0 <= i < |r.errors| ==> StartsWith(r.errors[i], "Facebook: ") || StartsWith(r.errors[i], "Instagram: ")
    ensures |r.errors| == 2 ==> StartsWith(r.errors[0], "Facebook: ") && StartsWith(r.errors[1], "Instagram: ")
    ensures !TriesFacebook(config, platform.GetOr(Both)) ==> r.facebook == None
    ensures !TriesInstagram(config, platform.GetOr(Both)) ==> r.instagram == None
    ensures forall i :: 0 <= i < |r.calls| ==> Some(r.calls[i].Token()) == config.facebookAccessToken
    ensures var p := platform.GetOr(Both);
      var fa := PostToFacebook(config.facebookPageId, config.facebookAccessToken, text, imageUrl, graph);
      var ia := PostToInstagram(config.instagramAccountId, config.facebookAccessToken, text, imageUrl, graph);
      && (TriesFacebook(config, p) ==> r.facebook == IdOf(fa))
      && (TriesInstagram(config, p) ==> r.instagram == IdOf(ia))
      && r.errors == (if TriesFacebook(config, p) then ErrorsOf("Facebook: ", fa) else [])
                   + (if TriesInstagram(config, p) then ErrorsOf("Instagram: ", ia) else [])
  {
    var p := platform.GetOr(Both);
    var fb := FacebookPart(config, text, imageUrl, p, graph);
    var ig := InstagramPart(config, text, imageUrl, p, graph);
    Outcome(fb.facebook, ig.instagram, fb.errors + ig.errors, fb.calls + ig.calls)
  }

  /** Posting to both platforms is posting to each alone, Facebook first:
      a Facebook failure changes nothing about the Instagram attempt. */
  lemma BothIsEachInTurn(config: Config, text: string, imageUrl: Option<string>, graph: Graph)
    ensures var both := PostToSocial(config, text, imageUrl, Some(Both), graph);
      var fb := PostToSocial(config, text, imageUrl, Some(Facebook), graph);
      var ig := PostToSocial(config, text, imageUrl, Some(Instagram), graph);
      && both.facebook == fb.facebook && both.instagram == ig.instagram
      && both.errors == fb.errors + ig.errors && both.calls == fb.calls + ig.calls
  {
    var fb := FacebookPart(config, text, imageUrl, Facebook, graph);
    var ig := InstagramPart(config, text, imageUrl, Instagram, graph);
    assert FacebookPart(config, text, imageUrl, Both, graph) == fb;
    assert InstagramPart(config, text, imageUrl, Both, graph) == ig;
    assert FacebookPart(config, text, imageUrl, Instagram, graph) == Outcome(None, None, [], []);
    assert InstagramPart(config, text, imageUrl, Facebook, graph) == Outcome(None, None, [], []);
    assert fb.errors + [] == fb.errors && [] + ig.errors == ig.errors;
    assert fb.calls + [] == fb.calls && [] + ig.calls == ig.calls;
  }

  /** A platform value that is none of the three, or a configuration with
      neither account id, makes no call and yields no id and no error. */
  lemma NothingToTry(config: Config, text: string, imageUrl: Option<string>, platform: Platform, graph: Graph)
    requires platform == OtherPlatform || (!Truthy(config.facebookPageId) && !Truthy(config.instagramAccountId))
    ensures PostToSocial(config, text, imageUrl, Some(platform), graph) == Outcome(None, None, [], [])
  {
  }

  /** A platform that ends with an id recorded no error. */
  lemma IdMeansNoError(config: Config, text: string, imageUrl: Option<string>, platform: Option<Platform>, graph: Graph)
    ensures var r := PostToSocial(config, text, imageUrl, platform, graph);
      && (r.facebook.Some? ==> forall i :: 0 <= i < |r.errors| ==> !StartsWith(r.errors[i], "Facebook: "))
      && (r.instagram.Some? ==> forall i :: 0 <= i < |r.errors| ==> !StartsWith(r.errors[i], "Instagram: "))
  {
    var p := platform.GetOr(Both);
    var fb := FacebookPart(config, text, imageUrl, p, graph);
    var ig := InstagramPart(config, text, imageUrl, p, graph);
    assert "Facebook: "[0] != "Instagram: "[0];
    forall e | e in ig.errors ensures !StartsWith(e, "Facebook: ") {
      assert StartsWith(e, "Instagram: ");
      assert e[0] == 'I';
    }
    forall e | e in fb.errors ensures !StartsWith(e, "Instagram: ") {
      assert StartsWith(e, "Facebook: ");
      assert e[0] == 'F';
    }
  }

  /** Instagram without an image fails before any call is made, and the
      Facebook attempt still goes ahead. */
  lemma InstagramNeedsAnImage(config: Config, text: string, graph: Graph)
    requires Truthy(config.instagramAccountId) && Truthy(config.facebookAccessToken)
    ensures var r := PostToSocial(config, text, None, Some(Both), graph);
      && r.instagram == None
      && r.errors[|r.errors| - 1] == "Instagram: " + InstagramNeedsImage
      && (Truthy(config.facebookPageId) ==> |r.calls| == 1 && r.calls[0].FacebookFeed?)
  {
  }
}

=== FILE: wrappers.dfy ===
/** Optional values and results with an error message, the shapes the
    autopilot's `null`/`undefined` values and thrown errors take here. */
module Wrappers {

  /** A value that may be absent (`null` or `undefined` in the source). */
  datatype Option<+T> = None | Some(value: T) {

    /** The value when present, `default` otherwise. */
    function GetOr(default: T): T
    {
      match this
      case Some(v) => v
      case None => default
    }
  }

  /** The outcome of an operation that may throw; the error carries the
      thrown message, since messages are what the source records and joins. */
  datatype Result<+T> = Ok(value: T) | Err(error: string)
}
